=== FILE: README.md ===
# dhtmlxGantt configurator: a Dafny model

This project models the parts of the dhtmlxGantt plugin that connect the
designer to the configurator page and the page to the chart:

- **Build**: the `dynamic-base` build plugin. In an IIFE build it wraps every
  quoted `assets/...` literal of an entry chunk in `FGC__getAssetUrl(...)` and
  prepends that helper. At run time the helper resolves an asset beside the
  running script.
- **Host**: the designer command `GanttConfigCommand`. It picks the property to
  edit, creates one shared web view, and pushes the current value into the
  page. On OK it reads the page's text back. Its `HostObject` gives the page
  read-only accessors.
- **Page**: the configurator page.
  - Start-up settles four host accessors concurrently, and one failure never
    blocks another's result.
  - The editor's bridge callbacks.
  - The editor's own start-up effect: the initial value, the cursor at the end,
    and the placeholder flag.
  - The `[%` / `[=` completion providers.
  - The panel toggles and the 500 ms watcher that feeds the preview.
  - The Monaco locale table.
- **Chart**: the effect shared by the preview and the runtime cell. It sets the
  task colour, initialises the chart once, and clears it before every
  user-supplied snippet. The preview re-runs on code or colour; the runtime
  cell re-runs on code only.

Browser, host and library services are not modelled as code. A call that can
fail or reply in several ways becomes a datatype parameter: host replies,
`EvaluateFunctionAsync` failures, URL parsing, and whether a snippet throws.
Time becomes a sequence of events.

The modules follow the source:

- `DynamicBase`
- `HostAccessors` and `ConfigCommand` (the C# file)
- `Atoms`
- `Startup` (App)
- `EditorBridge` (Editor component)
- `EditorInit` and `Completion` (editorInit)
- `PlayGround`
- `GanttChart` (both chart components)
- `EditorLocale`
- `Session`: the page composed end to end, as its entry module loads it: the Monaco locale step, then the application's start-up, the editor mounting and the editor's start-up effect

`JsText` and `Wrappers` hold the JavaScript string built-ins the source uses,
and `Option`/`Result`.

Where the program's own files disagree with each other, the model follows the
code that runs:

- The page publishes its bridge as `window.AiAssistantChatBridge`
  (`GanttConfigurator/src/components/Editor/index.tsx:36`). The host calls
  `window.dhtmlxGanttBridge` (`Designer/GanttConfigCommand.cs:83-104`), the
  name the page's own type declarations give
  (`GanttConfigurator/src/@types/global.d.ts:16`).
- The locale map is keyed `kr` (`GanttConfigurator/src/components/initEditorLang.tsx:9`),
  while the language accessor is declared to return `'ko'`
  (`GanttConfigurator/src/@types/global.d.ts:9`).
- The preview watcher calls `getValue()` on the editor's handle
  (`GanttConfigurator/src/components/PlayGround/index.tsx:28`), but the handle's
  interface has only `getRef` (`GanttConfigurator/src/components/Editor/index.tsx:13-15`).
- Start-up treats a value of white space alone as missing
  (`GanttConfigurator/src/App.tsx:62`). The editor's placeholder flag, by
  contrast, tests the raw length (`GanttConfigurator/src/components/Editor/index.tsx:95`),
  so there white space counts as content.

## Model

| member | source | states |
|---|---|---|
| JsText.TrimEmptyIffBlank | GanttConfigurator/src/App.tsx:62 | `s.trim()` is empty exactly when every character of `s` is ECMAScript white space or a line terminator |
| JsText.ToLower | GanttConfigurator/src/components/Editor/editorInit.tsx:87 | lower-casing keeps the length, turns each ASCII capital into its small letter, keeps every other character, and leaves no capital behind |
| JsText.ToLowerIdempotent | GanttConfigurator/src/components/Editor/editorInit.tsx:87 | lower-casing an already lower-cased string changes nothing |
| JsText.Includes | GanttConfigurator/src/components/Editor/editorInit.tsx:87 | `includes` is true exactly when the needle occurs at some offset of the haystack |
| JsText.EmptyNeedleMatchesAll | GanttConfigurator/src/components/Editor/editorInit.tsx:87 | an empty input is contained in every insert text, ignoring case |
| JsText.LastIndexOf | FrontEndModule/vite-plugin-dynamic-base.js:24 | the index of the last occurrence of the character, or -1 exactly when there is none |
| DynamicBase.NextQuoteIsFirst | FrontEndModule/vite-plugin-dynamic-base.js:35 | the greedy run of non-quotes ends at the first quote after `assets/` |
| DynamicBase.MatchAtSound | FrontEndModule/vite-plugin-dynamic-base.js:35 | a match found at a position is a quote, `assets/`, one or more non-quotes and a quote (the quotes may differ) |
| DynamicBase.MatchAtComplete | FrontEndModule/vite-plugin-dynamic-base.js:35 | every asset literal starting at a position is the match the scanner reports there |
| DynamicBase.RewriteCode | FrontEndModule/vite-plugin-dynamic-base.js:34-39 | the left-to-right loop produces the same text as the global replace |
| DynamicBase.ScanSpellsInput | FrontEndModule/vite-plugin-dynamic-base.js:34-39 | the pieces the replace walks over spell out the input exactly |
| DynamicBase.ScanLiteralsMatch | FrontEndModule/vite-plugin-dynamic-base.js:35-37 | every piece that is replaced is an asset literal, matched where it stands |
| DynamicBase.ScanPlainIsUnmatched | FrontEndModule/vite-plugin-dynamic-base.js:35 | a character that is copied unchanged starts no match (the replace is leftmost) |
| DynamicBase.RewriteIsScanOutput | FrontEndModule/vite-plugin-dynamic-base.js:36-38 | the rewrite is the pieces with each literal wrapped in `FGC__getAssetUrl(` ... `)` and every other character kept |
| DynamicBase.RewriteLength | FrontEndModule/vite-plugin-dynamic-base.js:37 | the rewritten code is 18 characters longer per wrapped literal |
| DynamicBase.RewriteWithoutLiteralsIsIdentity | FrontEndModule/vite-plugin-dynamic-base.js:34-39 | code with no asset literal is left unchanged |
| DynamicBase.MixedQuotesAreWrapped | FrontEndModule/vite-plugin-dynamic-base.js:35 | a literal opened with `'` and closed with `"` is still wrapped, because the two quote groups are independent |
| DynamicBase.EmptyAssetPathIsNotWrapped | FrontEndModule/vite-plugin-dynamic-base.js:35 | `"assets/"` with nothing after the slash is not wrapped |
| DynamicBase.GenerateBundle | FrontEndModule/vite-plugin-dynamic-base.js:8-44 | a non-IIFE build is untouched; in an IIFE build the file names are kept, non-entry files are untouched, and each entry chunk becomes the helper followed by its rewritten code |
| DynamicBase.DirOf | FrontEndModule/vite-plugin-dynamic-base.js:24 | the base path is the longest prefix of the pathname ending in `/` (empty without a slash) |
| DynamicBase.AssetUrl | FrontEndModule/vite-plugin-dynamic-base.js:16-30 | the path is returned unchanged in all of these cases: without a document, in the designer preview, or without a script source. An undeclared `Forguncy` throws. Otherwise the result is origin + script directory + `Resources/frontendModuleDist/` + path |
| DynamicBase.AssetUrlBesideScript | FrontEndModule/vite-plugin-dynamic-base.js:21-26 | for a script at `dir/file` the asset resolves to origin + `dir/` + the distribution folder + path |
| HostAccessors.NormalizeThemeColor | Designer/GanttConfigCommand.cs:183-188 | a 9-character colour starting with `#` loses its alpha pair; anything else becomes empty |
| HostAccessors.NormalizeDropsAlpha | Designer/GanttConfigCommand.cs:184-186 | `#AARRGGBB` comes back as `#RRGGBB` for every alpha pair |
| HostAccessors.GetAccent1Color | Designer/GanttConfigCommand.cs:174-191 | empty without a context, theme table or `Accent1` key; otherwise `#RRGGBB` exactly when the stored colour has the `#AARRGGBB` shape |
| HostAccessors.GetParamValue | Designer/GanttConfigCommand.cs:152-156 | the property's text, or `""` when the context or its value is null |
| HostAccessors.Save | Designer/GanttConfigCommand.cs:161-164 | the property takes the data; a null context is a null-reference failure |
| HostAccessors.SaveThenGet | Designer/GanttConfigCommand.cs:152-164 | what `Save` stores is what `GetParamValue` returns next |
| HostAccessors.GetAllListviewInPage | Designer/GanttConfigCommand.cs:143-151 | the page's list views, or the empty array without a context |
| HostAccessors.GetWebviewUrl | Designer/GanttConfigCommand.cs:40-56 | throws without a context; in debug mode it is the development server; otherwise the dist folder (null read as empty) followed by `\index.html?pluginName=dhtmlxGantt` |
| ConfigCommand.HostCall | Designer/GanttConfigCommand.cs:83-84 | a call into the page fails to resolve exactly when the bridge is not published under `dhtmlxGanttBridge`, and then the page is untouched; the page keeps its bridge name; a resolved call answers with the bridge's reply |
| ConfigCommand.SelectDataContext | Designer/GanttConfigCommand.cs:60-64 | the command's own context wins over the parameter; there is none only when both are missing |
| ConfigCommand.Execute | Designer/GanttConfigCommand.cs:58-110 | without a context nothing happens. It faults exactly when it must create the web view without a builder context. An existing web view is reused. Otherwise, when the dialog is shown, one new web view is created on the URL built from the builder context. With a context, the dialog is shown unless creation faulted, and it opens on the chosen context. Only a shown dialog changes the static web view |
| ConfigCommand.FirstExecuteCreatesBrowser | Designer/GanttConfigCommand.cs:72-75 | the first execution on a context, with a builder context, creates the one web view on the page URL and shows the dialog |
| ConfigCommand.BrowserCreatedAtMostOnce | Designer/GanttConfigCommand.cs:72-75 | over any number of executions at most one web view is created |
| ConfigCommand.Close | Designer/GanttConfigCommand.cs:98-107 | a close other than OK changes nothing; closing is always permitted when the handler completes; with a reachable bridge OK stores exactly the editor's text |
| ConfigCommand.OkCloseLosesEditsAsWritten | Designer/GanttConfigCommand.cs:100-105 | with the page's bridge under its published name, OK never stores the edited text: the value stays or becomes null, depending on the host |
| ConfigCommand.ExecuteLeavesPageAsWritten | Designer/GanttConfigCommand.cs:83-84 | as published, the page never receives `windowReopen` or `setValue` |
| ConfigCommand.SessionRoundTripCorrected | Designer/GanttConfigCommand.cs:81-105 | with the bridge under the name the host calls, executing resets the page and loads the property's value, and OK after an edit stores exactly the edit |
| Startup.Settle | GanttConfigurator/src/App.tsx:23-56 | a settling promise marks itself settled |
| Startup.Finish | GanttConfigurator/src/App.tsx:59-67 | the page is initialised exactly when all six promises have settled; a blank value is replaced by the default configuration, and the other atoms are untouched |
| Startup.Init | GanttConfigurator/src/App.tsx:22-68 | after start-up the page is initialised with no data sources and not as a command, and the placeholder flag is untouched |
| Startup.SettledFields | GanttConfigurator/src/App.tsx:23-56 | each field's final value depends only on whether its own promise has settled: the handlers write disjoint fields |
| Startup.InitFields | GanttConfigurator/src/App.tsx:22-68 | start-up sets each atom from its own accessor's reply or that accessor's default, replaces a blank value by the default configuration, marks the page initialised, and leaves every other atom as it was |
| Startup.FinishAfterAll | GanttConfigurator/src/App.tsx:23-67 | once all six promises have settled, in any order, each atom holds what its own handler wrote, and a blank value becomes the default configuration |
| Startup.SettlingOrderIsIrrelevant | GanttConfigurator/src/App.tsx:59 | any two orders in which the six promises settle end start-up in the same state |
| Startup.NotInitialisedBeforeAllSettle | GanttConfigurator/src/App.tsx:59-67 | while a promise is outstanding the page stays uninitialised |
| Startup.InitDefaults | GanttConfigurator/src/App.tsx:33-56 | accessor by accessor: a failure gives `""`, `en`, no list views or no colour, and a success gives the reply, independently of the other accessors |
| Startup.InitWithoutBridge | GanttConfigurator/src/App.tsx:33-67 | without the bridge, start-up still completes on the default configuration and leaves language, list views and colour as they were |
| Startup.ReinitReadsCurrentValue | GanttConfigurator/src/App.tsx:27-37 | a repeated start-up reads the value afresh; nothing of the previous session's value survives |
| Startup.InitAgainstHost | GanttConfigurator/src/App.tsx:33-56 | against the real host object, no builder context means no list views and no colour; a colour is empty or `#RRGGBB`; a null property opens on the default |
| Startup.InitdEffect | GanttConfigurator/src/App.tsx:16-21 | when uninitialised: `ready()` is signalled once, first, exactly when the bridge exists, and `init()` once, last; when initialised: nothing |
| EditorBridge.OnMount | GanttConfigurator/src/components/Editor/index.tsx:101-105 | on mount both refs are set and the editor is marked initialised, with an empty buffer |
| EditorBridge.OnChange | GanttConfigurator/src/components/Editor/index.tsx:94-100 | the placeholder flag is set exactly when the new text is missing or empty, and nothing else changes |
| EditorBridge.Invoke | GanttConfigurator/src/components/Editor/index.tsx:35-59 | `beforeClose` is true, `hasUnsavedChanges` is false, `getSerializedData` is the buffer's text, `windowReopen` uninitialises, `setValue` replaces the text and puts the cursor at 1:1 (Monaco's `setValue` resets the selection) when an editor exists, `editorReady` reports Monaco |
| EditorBridge.SetValueThenSerialize | GanttConfigurator/src/components/Editor/index.tsx:43-54 | what `setValue` pushes is exactly what `getSerializedData` returns |
| EditorBridge.EditorReadyIffMounted | GanttConfigurator/src/components/Editor/index.tsx:55-57 | over any event sequence, `editorReady()` is true exactly when Monaco has mounted |
| EditorBridge.WhitespaceIsContent | GanttConfigurator/src/components/Editor/index.tsx:95 | text of white space alone hides the placeholder |
| EditorInit.EndPositionAfterLastBreak | GanttConfigurator/src/components/Editor/editorInit.tsx:26-28 | the cursor goes after the last character: the column counts back to the last line break, and the line is 1 exactly when there is no break |
| EditorInit.EndPositionExtendPair | GanttConfigurator/src/components/Editor/editorInit.tsx:26-28 | a `\r\n` pair starts one new line, not two |
| EditorInit.CountEndPosition | GanttConfigurator/src/components/Editor/editorInit.tsx:26-28 | counting lines left to right, with `\r\n` as one break, gives the same end position |
| EditorInit.InitHint | GanttConfigurator/src/components/Editor/editorInit.tsx:37-51 | both previous providers are disposed and fresh ones are registered: `%` over keywords, `=` over variables |
| EditorInit.InitHintKeepsNoLeak | GanttConfigurator/src/components/Editor/editorInit.tsx:41-50 | however often providers are re-registered, every old one is disposed and the two live ones are distinct |
| EditorInit.InitEffect | GanttConfigurator/src/components/Editor/editorInit.tsx:17-31 | once initialised, the editor holds the initial value with the cursor at its end, and the placeholder shows exactly when the value is empty; before that, nothing happens |
| EditorInit.RegisteredProvidersSuggestNothing | GanttConfigurator/src/components/Editor/editorInit.tsx:23 | the providers registered at start-up have empty lists and suggest nothing |
| Completion.TextUntil | GanttConfigurator/src/components/Editor/editorInit.tsx:53-60 | the text before the cursor: `column - 1` characters that, followed by the rest of the line, make up the whole line |
| Completion.CurrentInput | GanttConfigurator/src/components/Editor/editorInit.tsx:74-85 | the longest suffix before the cursor with no trigger character; the character before it is the trigger |
| Completion.ToSuggestions | GanttConfigurator/src/components/Editor/editorInit.tsx:88-101 | one suggestion per entry, in order |
| Completion.ProvideCompletionItems | GanttConfigurator/src/components/Editor/editorInit.tsx:68-104 | there is a list exactly when the character before the last is `[`. Each item's label is its insert text. Each item's range lies on the cursor line, ends at the cursor and starts one column before the current input, at the cursor column minus the input's length minus one |
| Completion.MatchingIsFilter | GanttConfigurator/src/components/Editor/editorInit.tsx:86-87 | the filter keeps exactly the entries containing the input, ignoring case, each as often as it occurs in the list, in their order |
| Completion.MatchingCounts | GanttConfigurator/src/components/Editor/editorInit.tsx:86-87 | each entry occurs in the result as often as in the list when it contains the input, and not at all otherwise |
| Completion.SuggestionsAreMatchingEntries | GanttConfigurator/src/components/Editor/editorInit.tsx:86-103 | the suggestions are the matching entries one for one, in order, with the same insert text and detail, and each contains the current input ignoring case |
| Completion.TriggerOffersEverything | GanttConfigurator/src/components/Editor/editorInit.tsx:70-98 | right after `[` and the trigger, every entry is offered, replacing just the trigger |
| Completion.RangeStartsAtZeroIffNoTrigger | GanttConfigurator/src/components/Editor/editorInit.tsx:93-98 | the range starts at column 0 exactly when no trigger precedes the cursor on the line |
| PlayGround.ToggleEditor | GanttConfigurator/src/components/PlayGround/index.tsx:86-92 | the editor panel flips unless it is the only one visible; the preview panel is untouched |
| PlayGround.ToggleGantt | GanttConfigurator/src/components/PlayGround/index.tsx:100-106 | the preview panel flips unless it is the only one visible; the editor panel is untouched |
| PlayGround.TogglesKeepOneVisible | GanttConfigurator/src/components/PlayGround/index.tsx:86-106 | after any sequence of clicks at least one panel is visible |
| PlayGround.PanelWidth | GanttConfigurator/src/components/PlayGround/index.tsx:49-56 | `50%` exactly when both panels are visible, `100%` exactly when one is, `0%` exactly when none is |
| PlayGround.ZeroWidthUnreachable | GanttConfigurator/src/components/PlayGround/index.tsx:49-56 | `0%` is never reached from the initial panels |
| PlayGround.PollEditor | GanttConfigurator/src/components/PlayGround/index.tsx:27-28 | no handle means no poll; a handle without `getValue` throws; otherwise the poll gives the editor's text |
| PlayGround.Cleanup | GanttConfigurator/src/components/PlayGround/index.tsx:41-46 | the running interval is cleared and the ref reset |
| PlayGround.Start | GanttConfigurator/src/components/PlayGround/index.tsx:21-34 | a running interval is cleared before a new one starts, and the new closure captures the current preview value |
| PlayGround.OnInitdChange | GanttConfigurator/src/components/PlayGround/index.tsx:36-47 | after the effect an interval runs exactly when the page is initialised |
| PlayGround.Tick | GanttConfigurator/src/components/PlayGround/index.tsx:26-33 | only the preview value changes. A missing value reads as `""`. The preview takes the text when it differs from the captured value, and nothing changes when it equals the captured value. A throwing poll or a stopped watcher changes nothing |
| PlayGround.WatchKeepsNoLeakedTimer | GanttConfigurator/src/components/PlayGround/index.tsx:21-47 | over any sequence of initialisation changes and ticks, every interval but the running one is cleared |
| PlayGround.PreviewFrozenAsWritten | GanttConfigurator/src/components/PlayGround/index.tsx:27-28 | with the editor's real handle the preview value never changes |
| PlayGround.StaleCaptureMissesReturn | GanttConfigurator/src/components/PlayGround/index.tsx:29-31 | in every state where the preview has moved away from the captured value, an editor back at the captured value is not shown; the corrected tick shows it |
| PlayGround.StaleCaptureKeepsOldPreview | GanttConfigurator/src/components/PlayGround/index.tsx:29 | after the preview took `abc`, clearing the editor to the captured `""` never reaches the preview |
| PlayGround.TickCorrected | GanttConfigurator/src/components/PlayGround/index.tsx:26-33 | comparing against the preview's current value, a running watcher's tick leaves the preview holding the editor's text |
| PlayGround.PreviewFollowsEditorCorrected | GanttConfigurator/src/components/PlayGround/index.tsx:26-33 | with a handle exposing `getValue`, after each corrected tick the preview equals the editor's text |
| GanttChart.HasTextIffNotBlank | GanttConfigurator/src/components/Gantt/index.tsx:31 | `s && s.trim()` holds exactly for a present string that is not all white space |
| GanttChart.PreviewBackground | GanttConfigurator/src/components/Gantt/index.tsx:19-24 | the preview sets the bar colour to the prop, untrimmed, exactly when the prop is not blank |
| GanttChart.RuntimeBackground | FrontEndModule/src/components/Gantt.tsx:19-29 | a throwing conversion is warned about; a non-empty colour is set; anything else does nothing |
| GanttChart.ConfigActions | GanttConfigurator/src/components/Gantt/index.tsx:31-41 | the chart is always cleared first. A non-blank snippet is run right after clearing, and its errors are caught. Blank code only clears, and a `clearAll` failure there escapes |
| GanttChart.Effect | GanttConfigurator/src/components/Gantt/index.tsx:14-43 | without a container nothing happens; the chart is initialised exactly when it was not yet; only the blank branch can let an error escape |
| GanttChart.DepsEqualIff | FrontEndModule/src/components/Gantt.tsx:48 | two props give the same dependency list, so the effect is skipped, exactly when the code agrees and, for the preview, the colour agrees too |
| GanttChart.Render | GanttConfigurator/src/components/Gantt/index.tsx:43 | the effect runs exactly when a dependency changed since its last run, and appends its calls |
| GanttChart.EffectInits | GanttConfigurator/src/components/Gantt/index.tsx:26-29 | a run initialises the chart once exactly when it has a container and was not initialised |
| GanttChart.InitAtMostOnce | GanttConfigurator/src/components/Gantt/index.tsx:26-29 | over any sequence of renders the chart is initialised at most once, and never without a container |
| GanttChart.EffectClearsBeforeSnippet | GanttConfigurator/src/components/Gantt/index.tsx:31-41 | in one run every snippet directly follows `clearAll` |
| GanttChart.EffectRunsOnlyNonBlankCode | GanttConfigurator/src/components/Gantt/index.tsx:31-38 | a snippet the effect runs is exactly the configured code, and that code is not blank |
| GanttChart.SnippetsRunOnClearedChart | GanttConfigurator/src/components/Gantt/index.tsx:31-41 | over any sequence of renders `clearAll` directly precedes every snippet |
| GanttChart.ThemeChangeAloneRepaintsOnlyPreview | FrontEndModule/src/components/Gantt.tsx:48 | a colour change alone repaints the preview's bars but does not re-run the runtime cell's effect |
| GanttChart.PaddedAccentAppliedAsGiven | GanttConfigurator/src/components/Gantt/index.tsx:20-21 | a colour with surrounding blanks is applied as given |
| GanttChart.MissingContainerIsNotRetried | GanttConfigurator/src/components/Gantt/index.tsx:15-17 | a run without a container still records its dependencies, so the same props never retry |
| EditorLocale.EffectiveLang | GanttConfigurator/src/components/initEditorLang.tsx:4 | a missing or empty `RS.Lang` reads as `en`; any other value is kept |
| EditorLocale.LookupLocale | GanttConfigurator/src/components/initEditorLang.tsx:5-10 | exactly `en`, `cn`, `ja` and `kr` are mapped; `Object.prototype` member names find an inherited member; everything else is undefined |
| EditorLocale.InitEditorLang | GanttConfigurator/src/components/initEditorLang.tsx:3-17 | a missing bridge throws; otherwise `vs` is `public/monacoEditor` and the locale is the map's entry for the effective language |
| EditorLocale.KnownCodes | GanttConfigurator/src/components/initEditorLang.tsx:5-10 | `cn`, `ja` and `kr` give `zh-cn`, `ja` and `ko`; missing or empty gives the built-in locale |
| EditorLocale.KoreanCodeIsUnmapped | GanttConfigurator/src/components/initEditorLang.tsx:9 | the code `ko` finds no locale |
| EditorLocale.LocaleIsOneOfFour | GanttConfigurator/src/components/initEditorLang.tsx:5-10 | a mapped locale is one of `""`, `zh-cn`, `ja`, `ko` |
| EditorLocale.InitEditorLangCorrected | GanttConfigurator/src/components/initEditorLang.tsx:4 | with the bridge read through `?.`, the step never throws, agrees with `InitEditorLang` whenever the bridge exists, and without one chooses Monaco's built-in English |
| Session.Open | GanttConfigurator/src/App.tsx:59-69 | the application component alone: after its start-up and the editor mounting, it is initialised and the editor exists |
| Session.LoadPage | GanttConfigurator/src/main.tsx:6-7 | the locale step runs before the application renders: the page fails to load exactly when the browser bridge is missing; otherwise the locale is the map's entry for the effective language and the application opens initialised with an editor |
| Session.NoBridgeStopsBeforeRender | GanttConfigurator/src/main.tsx:6-7 | without a bridge the page stops with the `TypeError`, although the application component alone would have opened |
| Session.LoadPageCorrected | GanttConfigurator/src/main.tsx:6-7 | with the guarded locale step the page always opens initialised with an editor, and it agrees with `LoadPage` whenever the bridge exists |
| Session.NoBridgeOpensOnDefaultCorrected | GanttConfigurator/src/App.tsx:33-67 | with the guarded locale step, a page without a bridge opens in English on the default configuration, with the cursor at its end |
| Session.FailingHostOpensOnDefault | GanttConfigurator/src/App.tsx:33-67 | when every accessor fails, the editor opens on the default configuration. The cursor is at its end. The placeholder shows exactly when the default is empty. Language is `en`, with no list views or colour. The page's own `getSerializedData` callback returns the default (the host's `dhtmlxGanttBridge` call does not reach it as written; see Findings) |
| Session.StoredValueRoundTrips | GanttConfigurator/src/App.tsx:62-66 | a stored non-blank value is what the editor opens on and what the page's own `getSerializedData` callback returns, with the placeholder hidden (the host's read-back through the corrected bridge name is `ConfigCommand.SessionRoundTripCorrected`) |

## Left out

- The chart library, Monaco, React and the dialog window are not modelled as code. Their visible effects are a log of calls (`GanttChart.Action`), datatype fields, or event sequences.
- `GanttChart.Effect`: whether a snippet compiles and runs is a parameter of each run, because evaluating `new Function` code is outside the model. `gantt.init` is assumed not to throw. What React does with an error that escapes the effect is not modelled; the instance only records it.
- `DEFAULT_GANTT_CONFIG` (`GanttConfigurator/src/Utils/defaultGanttConfig`) is not part of this model; it is a parameter `defaultConfig`.
- `ConfigCommand.Close`: what `EvaluateFunctionAsync` does when `window.dhtmlxGanttBridge` is missing belongs to the host SDK, so it is a parameter (`FailureMode`: the await throws, or the call yields null).
- `ConfigCommand.Execute`: the dialog's window arguments (size, buttons, resize mode), and `AddResourceObjectToScript` are host UI details outside the model. `AddHostObjectToScript` (lines 87-88) is assumed to succeed: it is what binds the data context `GetParamValue` reads, and it is modelled as the page's bridge carrying the host object (`Startup.Bridge(Some(host))`). The two calls into the page are not awaited; they are modelled as taking effect before the dialog shows.
- `HostObject.GetLanguage`, `GetDataSources` and `IsCommand` return a resource string and two constants. Start-up does not read the last two; the language reply is a parameter of `Startup.HostReplies`.
- `HostAccessors.GetAllListviewInPage`: the JSON text `System.Text.Json` writes is abstracted as the list it encodes (`ListViewJson`). A `JSON.parse` failure in start-up is the `Resolved(None)` reply.
- `HostAccessors.NormalizeThemeColor`: treats .NET `StartsWith("#")` as an ordinal comparison. `Length` is taken as the number of Dafny characters (Unicode scalar values), while .NET counts UTF-16 code units; the two agree on the ASCII colour strings the theme stores.
- Strings (`JsText`, `Completion`, `EditorInit`) are sequences of Unicode scalar values, while JavaScript's `.length` and `.at()` and Monaco's columns count UTF-16 code units. On text with characters outside the Basic Multilingual Plane, lengths and columns differ from the program. For example, on the line `[😀` JavaScript's `.at(-2)` is a lone high surrogate, so no list is offered, while `Completion.AfterOpenBracket` holds. Likewise `EditorInit.EndPosition` counts such a character as one column, where Monaco counts two.
- `JsText.ToLower`: lower-cases ASCII letters only, not the full Unicode case mapping of `toLowerCase`.
- `DynamicBase.AssetUrl`: URL parsing is the browser's, so the parsed origin and pathname are given with the script. `Forguncy?.StaticData?.IsDesignerPreview` is reduced to its truthiness.
- `DynamicBase.HelperCode`: the template literal's CR LF line ends are read as LF, as template literals normalise them.
- `PlayGround.Tick`: the 500 ms period is not modelled; ticks are events. Interval handles are assumed truthy, as browsers return positive handles.
- The `--accent-color` style of the playground container, the panels' `display` flags, the placeholder's text, and Monaco's highlighting (`initHighlight`) are presentation only.
- `EditorBridge.OnChange`: Monaco's change event after `setValue` is a separate event, not part of the call that caused it.
- `EditorLocale.LookupLocale`: lists the common `Object.prototype` member names; engine-specific extra members are not listed. What `loader.config` does with the configuration belongs to Monaco.
- `Session.Open` and `Startup.InitWithoutBridge`: they describe the application component alone. The page as loaded never reaches them without a bridge, because `initEditorLang()` throws first (`Session.LoadPage`; see Findings).
- `Startup.Settle`: JavaScript's microtask order is a parameter (the settling order), and every order is covered.
- Build scripts, the development loader, the cell type and its designer, and the platform SDK declarations are outside the modelled core.

## Findings

| source | as written | input that shows it | evidently intended | confidence | as-written member | corrected member |
|---|---|---|---|---|---|---|
| Designer/GanttConfigCommand.cs:83-104 | the host calls `window.dhtmlxGanttBridge.*`, but the page publishes its callbacks as `window.AiAssistantChatBridge` (GanttConfigurator/src/components/Editor/index.tsx:36) | open the dialog on a property holding `x`, type `y`, press OK | the property becomes `y` | not executed; high | ConfigCommand.OkCloseLosesEditsAsWritten | ConfigCommand.SessionRoundTripCorrected |
| GanttConfigurator/src/components/PlayGround/index.tsx:28 | the watcher calls `editorRef.current.getValue()`, but the editor's handle only has `getRef` (GanttConfigurator/src/components/Editor/index.tsx:13-15) | any tick after the page initialises: the call throws and the preview never changes | the preview follows the editor's text | not executed; high | PlayGround.PreviewFrozenAsWritten | PlayGround.PreviewFollowsEditorCorrected |
| GanttConfigurator/src/components/PlayGround/index.tsx:29 | each tick compares with the `editorValue` captured when the interval started | any running watcher whose preview differs from the captured value, polled with the captured value: start with `""`, type `abc` (the preview takes it), clear the editor; `""` equals the captured value, so the preview keeps `abc` | compare with the preview's current value | not executed; medium | PlayGround.StaleCaptureMissesReturn | PlayGround.TickCorrected |
| GanttConfigurator/src/components/initEditorLang.tsx:4 | `initEditorLang()`, called first at GanttConfigurator/src/main.tsx:6, reads `window.forguncyWebBrowserBridge.RS.Lang` without `?.`, while the application reads the same bridge only through `?.` | open the page with no browser bridge (front-end development outside the designer): the read throws a `TypeError` and the application is never rendered | read `forguncyWebBrowserBridge?.RS?.Lang` and fall back to `en` | not executed; medium | Session.NoBridgeStopsBeforeRender | Session.LoadPageCorrected |

=== FILE: atoms.dfy ===
/** The configurator's shared state: the jotai atoms and the record shapes they hold. */
module Atoms {

  /** One list view of the designed page, as the host reports it. */
  datatype ListViewInfo = ListViewInfo(
    listViewName: string,
    bindingTableName: string,
    allowAddNewRow: bool,
    allowEditRow: bool,
    allowDeleteRow: bool)

  /** A data source; the configurator only ever stores the empty list of them. */
  datatype DataSource = DataSource(name: string)

  /** The values of all atoms at one moment. */
  datatype Store = Store(
    initValue: string,
    initd: bool,
    lang: string,
    dataSources: seq<DataSource>,
    listviewInfo: seq<ListViewInfo>,
    isCommand: bool,
    editorNoData: bool,
    accent1Color: string)

  /** Every atom at its declared initial value. The accent-colour atom has no
      declaration in the context file; it starts as the empty string here. */
  const Initial: Store := Store("", false, "en", [], [], false, false, "")
}

=== FILE: chart_effect.dfy ===
/** The chart component's mount/update effect, in both builds: the configurator
    preview (colour from the `accent1Color` prop, re-run on code or colour) and
    the runtime cell (colour from the host's theme conversion, re-run on code
    only). The chart library and the page are reduced to a log of the calls the
    effect makes on them. */
module GanttChart {
  import opened Wrappers
  import JsText

  /** A call the effect makes, in order. `Warn` is a `console.warn` from a
      caught error. */
  datatype Action = SetTaskBackground(color: string) | InitChart | ClearAll | RunSnippet(code: string) | Warn

  datatype Flavor = Preview | Runtime

  /** The host's `ConvertToCssColor("Accent 1")`: it throws, or returns a
      string that may be empty or absent. */
  datatype HostColor = ColorThrows | ColorIs(css: Option<string>)

  /** The component's props. `accent` exists only on the preview; the runtime
      cell ignores it. */
  datatype Props = Props(configCode: Option<string>, accent: Option<string>)

  /** What the outside world does during one run of the effect: the host's
      colour answer, whether `gantt.clearAll()` throws, and whether the
      snippet fails to compile or throws while running. */
  datatype Env = Env(hostColor: HostColor, clearAllThrows: bool, snippetThrows: bool)

  /** The container ref is set or not; the initialised ref. */
  datatype Chart = Chart(hasContainer: bool, initialized: bool)

  /** The calls made, and whether an error escaped the effect. */
  datatype EffectRun = EffectRun(chart: Chart, actions: seq<Action>, escaped: bool)

  /** `if (s && s.trim())`. */
  predicate HasText(s: Option<string>) {
    s.Some? && s.value != "" && JsText.Trim(s.value) != ""
  }

  lemma HasTextIffNotBlank(s: Option<string>)
    ensures HasText(s) <==> s.Some? && !JsText.IsBlank(s.value)
  {
    if s.Some? {
      JsText.TrimEmptyIffBlank(s.value);
    }
  }

  /** The preview's colour step: the prop as given (untrimmed), when it holds
      anything other than white space. */
  function PreviewBackground(accent: Option<string>): (r: seq<Action>)
    ensures accent.Some? && !JsText.IsBlank(accent.value) ==> r == [SetTaskBackground(accent.value)]
    ensures !(accent.Some? && !JsText.IsBlank(accent.value)) ==> r == []
  {
    HasTextIffNotBlank(accent);
    if HasText(accent) then [SetTaskBackground(accent.value)] else []
  }

  /** The runtime cell's colour step: a throwing conversion is caught and
      warned about; a non-empty answer is applied. */
  function RuntimeBackground(c: HostColor): (r: seq<Action>)
    ensures c.ColorThrows? <==> r == [Warn]
    ensures c.ColorIs? && c.css.Some? && c.css.value != "" ==> r == [SetTaskBackground(c.css.value)]
    ensures c.ColorIs? && !(c.css.Some? && c.css.value != "") ==> r == []
  {
    match c
    case ColorThrows => [Warn]
    case ColorIs(css) => if css.Some? && css.value != "" then [SetTaskBackground(css.value)] else []
  }

  /** The colour step of either build: at most one call, which sets the colour
      or warns. */
  function Background(flavor: Flavor, props: Props, env: Env): (r: seq<Action>)
    ensures |r| <= 1
    ensures forall k :: 0 <= k < |r| ==> r[k].SetTaskBackground? || r[k].Warn?
  {
    if flavor.Preview? then PreviewBackground(props.accent) else RuntimeBackground(env.hostColor)
  }

  /** The code step: a non-blank snippet is run on a cleared chart inside a
      `try`; otherwise the chart is only cleared, outside any `try`. */
  function ConfigActions(code: Option<string>, env: Env): (r: (seq<Action>, bool))
    ensures |r.0| >= 1 && r.0[0] == ClearAll
    ensures HasText(code) ==> !r.1
    ensures !HasText(code) ==> r == ([ClearAll], env.clearAllThrows)
    ensures forall i :: 0 <= i < |r.0| && r.0[i].RunSnippet? ==> i == 1 && HasText(code) && r.0[i].code == code.value
    ensures HasText(code) && !env.clearAllThrows ==> |r.0| >= 2 && r.0[1] == RunSnippet(code.value)
  {
    if HasText(code) then
      if env.clearAllThrows then ([ClearAll, Warn], false)
      else if env.snippetThrows then ([ClearAll, RunSnippet(code.value), Warn], false)
      else ([ClearAll, RunSnippet(code.value)], false)
    else ([ClearAll], env.clearAllThrows)
  }

  /** One run of the effect. */
  function Effect(flavor: Flavor, chart: Chart, props: Props, env: Env): (r: EffectRun)
    ensures !chart.hasContainer ==> r == EffectRun(chart, [], false)
    ensures chart.hasContainer ==> r.chart == chart.(initialized := true)
    ensures (InitChart in r.actions) <==> chart.hasContainer && !chart.initialized
    ensures r.escaped ==> !HasText(props.configCode) && env.clearAllThrows
  {
    if !chart.hasContainer then EffectRun(chart, [], false)
    else
      var bg := Background(flavor, props, env);
      var init := if chart.initialized then [] else [InitChart];
      var cfg := ConfigActions(props.configCode, env);
      assert InitChart !in bg;
      assert InitChart !in cfg.0;
      EffectRun(chart.(initialized := true), bg + init + cfg.0, cfg.1)
  }

  /** The effect's dependency list: code and colour for the preview, code only
      for the runtime cell. */
  function Deps(flavor: Flavor, props: Props): (d: (Option<string>, Option<string>))
    ensures d.0 == props.configCode
    ensures flavor.Runtime? ==> d.1 == None
    ensures flavor.Preview? ==> d.1 == props.accent
  {
    if flavor.Preview? then (props.configCode, props.accent) else (props.configCode, None)
  }

  /** Two props give the same dependency list exactly when the code agrees and,
      for the preview, the colour agrees too: that is when React skips the
      effect. */
  lemma DepsEqualIff(flavor: Flavor, p: Props, q: Props)
    ensures Deps(flavor, p) == Deps(flavor, q) <==>
      p.configCode == q.configCode && (flavor.Preview? ==> p.accent == q.accent)
  {
  }

  /** A mounted component: the chart refs, the dependencies of the last run,
      the calls made so far, and whether an error has escaped. */
  datatype Instance = Instance(chart: Chart, lastDeps: Option<(Option<string>, Option<string>)>, log: seq<Action>, failed: bool)

  function Mount(hasContainer: bool): Instance {
    Instance(Chart(hasContainer, false), None, [], false)
  }

  /** A render: the effect runs on the first render and whenever a dependency
      changed since the last run. */
  function Render(flavor: Flavor, inst: Instance, props: Props, env: Env): (r: Instance)
    ensures inst.lastDeps == Some(Deps(flavor, props)) ==> r == inst
    ensures inst.lastDeps != Some(Deps(flavor, props)) ==>
      r.log == inst.log + Effect(flavor, inst.chart, props, env).actions
    ensures r.lastDeps == Some(Deps(flavor, props))
    ensures r.chart.hasContainer == inst.chart.hasContainer
  {
    var d := Deps(flavor, props);
    if inst.lastDeps == Some(d) then inst
    else
      var run := Effect(flavor, inst.chart, props, env);
      Instance(run.chart, Some(d), inst.log + run.actions, inst.failed || run.escaped)
  }

  function RenderAll(flavor: Flavor, inst: Instance, renders: seq<(Props, Env)>): Instance
    decreases |renders|
  {
    if renders == [] then inst
    else RenderAll(flavor, Render(flavor, inst, renders[0].0, renders[0].1), renders[1..])
  }

  function CountInits(log: seq<Action>): nat
    decreases |log|
  {
    if log == [] then 0 else (if log[0] == InitChart then 1 else 0) + CountInits(log[1..])
  }

  lemma {:induction false} CountInitsAppend(a: seq<Action>, b: seq<Action>)
    ensures CountInits(a + b) == CountInits(a) + CountInits(b)
    decreases |a|
  {
    if a == [] {
      assert a + b == b;
    } else {
      assert (a + b)[1..] == a[1..] + b;
      CountInitsAppend(a[1..], b);
    }
  }

  lemma CountInitsSingleton(a: seq<Action>)
    requires (InitChart in a) ==> a == [InitChart]
    ensures CountInits(a) == if InitChart in a then 1 else 0
  {
    if a != [] && InitChart !in a {
      assert a[0] != InitChart;
      CountInitsNone(a);
    }
  }

  lemma {:induction false} CountInitsNone(a: seq<Action>)
    requires InitChart !in a
    ensures CountInits(a) == 0
    decreases |a|
  {
    if a != [] {
      assert a[0] in a;
      assert forall x :: x in a[1..] ==> x in a;
      CountInitsNone(a[1..]);
    }
  }

  lemma EffectInits(flavor: Flavor, chart: Chart, props: Props, env: Env)
    ensures CountInits(Effect(flavor, chart, props, env).actions) == if chart.hasContainer && !chart.initialized then 1 else 0
  {
    if chart.hasContainer {
      var bg := Background(flavor, props, env);
      var init := if chart.initialized then [] else [InitChart];
      var cfg := ConfigActions(props.configCode, env).0;
      assert Effect(flavor, chart, props, env).actions == bg + init + cfg;
      assert InitChart !in bg;
      assert InitChart !in cfg;
      CountInitsAppend(bg + init, cfg);
      CountInitsAppend(bg, init);
      CountInitsNone(bg);
      CountInitsNone(cfg);
      CountInitsSingleton(init);
    }
  }

  /** The chart is initialised exactly once it has been logged as initialised. */
  ghost predicate InitLogged(inst: Instance) {
    CountInits(inst.log) == if inst.chart.initialized then 1 else 0
  }

  /** Over any sequence of renders the chart library is initialised at most
      once, and only if the container exists. */
  lemma {:induction false} InitAtMostOnce(flavor: Flavor, inst: Instance, renders: seq<(Props, Env)>)
    requires InitLogged(inst)
    ensures InitLogged(RenderAll(flavor, inst, renders))
    ensures CountInits(RenderAll(flavor, inst, renders).log) <= 1
    ensures !inst.chart.hasContainer ==> CountInits(RenderAll(flavor, inst, renders).log) == CountInits(inst.log)
    decreases |renders|
  {
    if renders != [] {
      var next := Render(flavor, inst, renders[0].0, renders[0].1);
      if inst.lastDeps != Some(Deps(flavor, renders[0].0)) {
        EffectInits(flavor, inst.chart, renders[0].0, renders[0].1);
        CountInitsAppend(inst.log, Effect(flavor, inst.chart, renders[0].0, renders[0].1).actions);
      }
      InitAtMostOnce(flavor, next, renders[1..]);
    }
  }

  /** Every snippet in a log runs on a chart cleared just before it. */
  predicate ClearedBeforeEachSnippet(log: seq<Action>) {
    forall i :: 0 <= i < |log| && log[i].RunSnippet? ==> 0 < i && log[i - 1] == ClearAll
  }

  lemma ClearedAppend(a: seq<Action>, b: seq<Action>)
    requires ClearedBeforeEachSnippet(a) && ClearedBeforeEachSnippet(b)
    requires b != [] ==> !b[0].RunSnippet?
    ensures ClearedBeforeEachSnippet(a + b)
  {
    forall i | 0 <= i < |a + b| && (a + b)[i].RunSnippet?
      ensures 0 < i && (a + b)[i - 1] == ClearAll
    {
      if i >= |a| {
        assert (a + b)[i] == b[i - |a|];
        assert (a + b)[i - 1] == b[i - 1 - |a|];
      }
    }
  }

  /** In one run every snippet directly follows `clearAll`. */
  lemma EffectClearsBeforeSnippet(flavor: Flavor, chart: Chart, props: Props, env: Env)
    ensures ClearedBeforeEachSnippet(Effect(flavor, chart, props, env).actions)
  {
    if chart.hasContainer {
      var pre := Background(flavor, props, env) + (if chart.initialized then [] else [InitChart]);
      var cfg := ConfigActions(props.configCode, env).0;
      assert Effect(flavor, chart, props, env).actions == pre + cfg;
      assert forall k :: 0 <= k < |pre| ==> !pre[k].RunSnippet?;
      assert ClearedBeforeEachSnippet(cfg);
      ClearedAppend(pre, cfg);
    }
  }

  /** In one run only the configured code is run, and only when it is not
      blank. */
  lemma EffectRunsOnlyNonBlankCode(flavor: Flavor, chart: Chart, props: Props, env: Env)
    ensures forall a :: a in Effect(flavor, chart, props, env).actions && a.RunSnippet? ==>
      props.configCode == Some(a.code) && !JsText.IsBlank(a.code)
  {
    if chart.hasContainer {
      var pre := Background(flavor, props, env) + (if chart.initialized then [] else [InitChart]);
      var cfg := ConfigActions(props.configCode, env).0;
      assert Effect(flavor, chart, props, env).actions == pre + cfg;
      assert forall k :: 0 <= k < |pre| ==> !pre[k].RunSnippet?;
      HasTextIffNotBlank(props.configCode);
    }
  }

  /** Across any sequence of renders, `clearAll` directly precedes every
      snippet run, and no blank snippet is ever run. */
  lemma {:induction false} SnippetsRunOnClearedChart(flavor: Flavor, inst: Instance, renders: seq<(Props, Env)>)
    requires ClearedBeforeEachSnippet(inst.log)
    ensures ClearedBeforeEachSnippet(RenderAll(flavor, inst, renders).log)
    decreases |renders|
  {
    if renders != [] {
      var next := Render(flavor, inst, renders[0].0, renders[0].1);
      if inst.lastDeps != Some(Deps(flavor, renders[0].0)) {
        var acts := Effect(flavor, inst.chart, renders[0].0, renders[0].1).actions;
        EffectClearsBeforeSnippet(flavor, inst.chart, renders[0].0, renders[0].1);
        ClearedAppend(inst.log, acts);
      }
      SnippetsRunOnClearedChart(flavor, next, renders[1..]);
    }
  }

  /** A change of the host theme alone re-runs the preview's effect, which
      repaints the bars, but not the runtime cell's, which keeps its colour
      until the code changes. */
  lemma ThemeChangeAloneRepaintsOnlyPreview(inst: Instance, props: Props, accent: Option<string>, env: Env)
    requires inst.lastDeps == Some(Deps(Preview, props)) && inst.chart.hasContainer
    requires accent != props.accent && accent.Some? && !JsText.IsBlank(accent.value)
    ensures Render(Runtime, inst.(lastDeps := Some(Deps(Runtime, props))), props.(accent := accent), env)
      == inst.(lastDeps := Some(Deps(Runtime, props)))
    ensures SetTaskBackground(accent.value) in Render(Preview, inst, props.(accent := accent), env).log
  {
    var acts := Effect(Preview, inst.chart, props.(accent := accent), env).actions;
    assert acts[0] == SetTaskBackground(accent.value);
    assert Render(Preview, inst, props.(accent := accent), env).log == inst.log + acts;
    assert (inst.log + acts)[|inst.log|] == acts[0];
  }

  /** A preview colour with surrounding white space is applied as given, not
      trimmed. */
  lemma PaddedAccentAppliedAsGiven()
    ensures PreviewBackground(Some(" #ff0000 ")) == [SetTaskBackground(" #ff0000 ")]
  {
    assert !JsText.IsJsWhitespace('#');
    assert !JsText.IsBlank(" #ff0000 ") by {
      assert " #ff0000 "[1] == '#';
    }
  }

  /** When the container is missing on the first run, the dependencies are
      still recorded, so a later render with the same props does not retry and
      the chart stays uninitialised. */
  lemma MissingContainerIsNotRetried(flavor: Flavor, props: Props, env: Env, env2: Env)
    ensures var first := Render(flavor, Mount(false), props, env);
      Render(flavor, first, props, env2) == first && first.log == [] && !first.chart.initialized
  {
  }
}

=== FILE: completion.dfy ===
/** The completion providers of the configurator's editor: a suggestion list is
    offered only right after a `[` and a trigger character; the text typed since
    the last trigger character filters the hint entries, ignoring case. Monaco's
    model is reduced to the text of the cursor's line. */
module Completion {
  import opened Wrappers
  import JsText

  /** One entry of a hint list. */
  datatype HintEntry = HintEntry(detail: string, insertText: string)

  /** A Monaco range, 1-based. */
  datatype Range = Range(startLine: int, startColumn: int, endLine: int, endColumn: int)

  /** A completion item; `labelText` is Monaco's `label`. */
  datatype Suggestion = Suggestion(labelText: string, insertText: string, range: Range, detail: string, documentation: string)

  /** `getTextUntilPosition`: the cursor line from column 1 up to the cursor. */
  function TextUntil(line: string, column: int): (r: string)
    requires 1 <= column <= |line| + 1
    ensures |r| == column - 1 && line == r + line[column - 1..]
  {
    assert line == line[..column - 1] + line[column - 1..];
    line[..column - 1]
  }

  /** `textUntilPosition.at(-2) === "["`: the character before the last is `[`
      (`at(-2)` is `undefined` on shorter text). */
  predicate AfterOpenBracket(prefix: string) {
    |prefix| >= 2 && prefix[|prefix| - 2] == '['
  }

  /** `match[1]` of `/([^t]*)$/`: the longest suffix holding no trigger `t`. */
  function CurrentInput(prefix: string, trigger: char): (r: string)
    ensures |r| <= |prefix| && r == prefix[|prefix| - |r|..]
    ensures forall k :: 0 <= k < |r| ==> r[k] != trigger
    ensures |r| < |prefix| ==> prefix[|prefix| - |r| - 1] == trigger
    decreases |prefix|
  {
    if |prefix| == 0 || prefix[|prefix| - 1] == trigger then ""
    else
      var r := CurrentInput(prefix[..|prefix| - 1], trigger);
      SuffixExtend(prefix, |r|);
      r + [prefix[|prefix| - 1]]
  }

  /** A suffix of the text without its last character, followed by that
      character, is a suffix of the text. */
  lemma SuffixExtend(prefix: string, n: nat)
    requires n < |prefix|
    ensures prefix[..|prefix| - 1][|prefix| - 1 - n..] + [prefix[|prefix| - 1]] == prefix[|prefix| - n - 1..]
  {
    var a := prefix[..|prefix| - 1][|prefix| - 1 - n..] + [prefix[|prefix| - 1]];
    forall k | 0 <= k < n + 1 ensures a[k] == prefix[|prefix| - n - 1..][k] {
      if k < n {
        assert a[k] == prefix[|prefix| - 1 - n + k];
      }
    }
  }

  /** The entries whose insert text contains the input, ignoring case, in order. */
  function Matching(entries: seq<HintEntry>, input: string): (r: seq<HintEntry>)
    ensures |r| <= |entries|
  {
    if entries == [] then []
    else
      var rest := Matching(entries[1..], input);
      if JsText.IncludesIgnoringCase(entries[0].insertText, input) then [entries[0]] + rest else rest
  }

  /** `a` is `b` with some elements left out, the rest in their order. */
  predicate IsSubsequence<T(==)>(a: seq<T>, b: seq<T>)
    decreases |b|
  {
    if a == [] then true
    else if b == [] then false
    else if a[0] == b[0] then IsSubsequence(a[1..], b[1..])
    else IsSubsequence(a, b[1..])
  }

  /** The filter keeps exactly the matching entries, each as often as it
      occurs, and keeps them in order. */
  lemma {:induction false} MatchingIsFilter(entries: seq<HintEntry>, input: string)
    ensures forall e :: e in Matching(entries, input) <==>
      e in entries && JsText.IncludesIgnoringCase(e.insertText, input)
    ensures IsSubsequence(Matching(entries, input), entries)
    ensures forall e ::
      multiset(Matching(entries, input))[e] == (if JsText.IncludesIgnoringCase(e.insertText, input) then multiset(entries)[e] else 0)
    decreases |entries|
  {
    MatchingCounts(entries, input);
    if entries != [] {
      MatchingIsFilter(entries[1..], input);
      assert entries == [entries[0]] + entries[1..];
      var m := Matching(entries, input);
      if JsText.IncludesIgnoringCase(entries[0].insertText, input) {
        assert m[1..] == Matching(entries[1..], input);
      } else {
        SubsequenceOfTail(m, entries);
      }
    }
  }

  /** The filter keeps every matching entry as often as it occurs, and drops
      every other one. */
  lemma {:induction false} MatchingCounts(entries: seq<HintEntry>, input: string)
    ensures forall e ::
      multiset(Matching(entries, input))[e] == (if JsText.IncludesIgnoringCase(e.insertText, input) then multiset(entries)[e] else 0)
    decreases |entries|
  {
    if entries != [] {
      MatchingCounts(entries[1..], input);
      assert entries == [entries[0]] + entries[1..];
      assert multiset(entries) == multiset{entries[0]} + multiset(entries[1..]);
    }
  }

  /** Dropping the head of the longer sequence keeps a subsequence one. */
  lemma SubsequenceOfTail<T>(a: seq<T>, b: seq<T>)
    requires b != [] && IsSubsequence(a, b[1..])
    ensures IsSubsequence(a, b)
    decreases |b|, 0
  {
    if a != [] && a[0] == b[0] {
      SubsequenceDropFirst(a, b[1..]);
    }
  }

  lemma SubsequenceDropFirst<T>(a: seq<T>, c: seq<T>)
    requires a != [] && IsSubsequence(a, c)
    ensures IsSubsequence(a[1..], c)
    decreases |c|, 1
  {
    if a[0] == c[0] {
      SubsequenceOfTail(a[1..], c);
    } else {
      SubsequenceDropFirst(a, c[1..]);
      SubsequenceOfTail(a[1..], c);
    }
  }

  /** The suggestion made from one entry: label and insert text are the entry's
      insert text, and the range ends at the cursor and starts one column before
      the input. */
  function ToSuggestion(e: HintEntry, lineNumber: int, column: int, input: string): Suggestion {
    Suggestion(e.insertText, e.insertText, Range(lineNumber, column - |input| - 1, lineNumber, column), e.detail, e.insertText)
  }

  function ToSuggestions(es: seq<HintEntry>, lineNumber: int, column: int, input: string): (r: seq<Suggestion>)
    ensures |r| == |es|
    ensures forall i :: 0 <= i < |es| ==> r[i] == ToSuggestion(es[i], lineNumber, column, input)
  {
    if es == [] then [] else [ToSuggestion(es[0], lineNumber, column, input)] + ToSuggestions(es[1..], lineNumber, column, input)
  }

  /** `provideCompletionItems` of a provider with trigger `trigger` over
      `entries`, at `column` of the line `line` (line number `lineNumber`). */
  function ProvideCompletionItems(line: string, lineNumber: int, column: int, trigger: char, entries: seq<HintEntry>)
    : (r: Option<seq<Suggestion>>)
    requires 1 <= column <= |line| + 1
    ensures r.None? <==> !AfterOpenBracket(TextUntil(line, column))
    ensures r.Some? ==> |r.value| <= |entries|
    ensures r.Some? ==> forall i :: 0 <= i < |r.value| ==>
      && r.value[i].labelText == r.value[i].insertText
      && r.value[i].range.startLine == lineNumber && r.value[i].range.endLine == lineNumber
      && r.value[i].range.endColumn == column
      && 0 <= r.value[i].range.startColumn < column
    ensures r.Some? ==> forall i :: 0 <= i < |r.value| ==>
      r.value[i].range.startColumn == column - |CurrentInput(TextUntil(line, column), trigger)| - 1
  {
    var prefix := TextUntil(line, column);
    if !AfterOpenBracket(prefix) then None
    else
      var input := CurrentInput(prefix, trigger);
      Some(ToSuggestions(Matching(entries, input), lineNumber, column, input))
  }

  /** The suggestions are exactly the entries containing the current input,
      ignoring case, in their original order, each keeping its detail. */
  lemma {:induction false} SuggestionsAreMatchingEntries(line: string, lineNumber: int, column: int, trigger: char, entries: seq<HintEntry>)
    requires 1 <= column <= |line| + 1
    requires AfterOpenBracket(TextUntil(line, column))
    ensures var input := CurrentInput(TextUntil(line, column), trigger);
      var r := ProvideCompletionItems(line, lineNumber, column, trigger, entries);
      && r.Some?
      && |r.value| == |Matching(entries, input)|
      && (forall i :: 0 <= i < |r.value| ==> r.value[i].insertText == Matching(entries, input)[i].insertText)
      && (forall i :: 0 <= i < |r.value| ==> r.value[i].detail == Matching(entries, input)[i].detail)
      && (forall i :: 0 <= i < |r.value| ==> JsText.IncludesIgnoringCase(r.value[i].insertText, input))
  {
    var input := CurrentInput(TextUntil(line, column), trigger);
    MatchingIsFilter(entries, input);
    var m := Matching(entries, input);
    forall i | 0 <= i < |m| ensures JsText.IncludesIgnoringCase(m[i].insertText, input) {
      assert m[i] in m;
    }
  }

  /** Right after typing the trigger behind `[`, the input is empty: every entry
      is offered, in order, each replacing just the trigger character. */
  lemma TriggerOffersEverything(line: string, lineNumber: int, column: int, trigger: char, entries: seq<HintEntry>)
    requires 3 <= column <= |line| + 1
    requires line[column - 3] == '[' && line[column - 2] == trigger
    ensures var r := ProvideCompletionItems(line, lineNumber, column, trigger, entries);
      && r.Some? && |r.value| == |entries|
      && forall i :: 0 <= i < |entries| ==>
           r.value[i].insertText == entries[i].insertText && r.value[i].range.startColumn == column - 1
  {
    var prefix := TextUntil(line, column);
    assert prefix[|prefix| - 1] == trigger;
    assert CurrentInput(prefix, trigger) == "";
    AllMatchEmpty(entries);
  }

  lemma {:induction false} AllMatchEmpty(entries: seq<HintEntry>)
    ensures Matching(entries, "") == entries
  {
    if entries != [] {
      JsText.EmptyNeedleMatchesAll(entries[0].insertText);
      AllMatchEmpty(entries[1..]);
    }
  }

  /** The replacement range reaches back to column 0 exactly when the line holds
      no trigger character before the cursor. */
  lemma RangeStartsAtZeroIffNoTrigger(line: string, column: int, trigger: char)
    requires 1 <= column <= |line| + 1
    ensures var input := CurrentInput(TextUntil(line, column), trigger);
      column - |input| - 1 == 0 <==> forall k :: 0 <= k < column - 1 ==> line[k] != trigger
  {
    var prefix := TextUntil(line, column);
    var input := CurrentInput(prefix, trigger);
    if |input| == |prefix| {
      assert input == prefix;
      forall k | 0 <= k < column - 1 ensures line[k] != trigger {
        assert line[k] == input[k];
      }
    }
  }
}

=== FILE: config_command.dfy ===
/** The designer command that opens the configurator dialog: which property it
    edits, the one web view shared by every execution, the calls it makes into
    the page, and the rule that commits the page's text when the dialog closes.
    The dialog window and the web view's script engine are the host's; a call
    into the page is resolved by the `window` property name it addresses. */
module ConfigCommand {
  import opened Wrappers
  import Atoms
  import EditorBridge
  import opened HostAccessors

  /** The `window` property the command calls into. */
  const HostBridgeName: string := "dhtmlxGanttBridge"

  /** A command instance: its builder context and `editorSettingsDataContext`. */
  datatype Command = Command(builder: Option<BuilderContext>, editorSettingsDataContext: Option<DataContext>)

  datatype Browser = Browser(url: WebviewUrl)

  /** The static `_webBrowser` field and how many web views were ever created. */
  datatype Statics = Statics(webBrowser: Option<Browser>, created: nat)

  const Startup: Statics := Statics(None, 0)

  /** The configurator page in the web view: the name its bridge object is
      published under, and its state. */
  datatype GuestPage = GuestPage(bridgeName: string, store: Atoms.Store, editor: EditorBridge.Editor)

  /** The outcome of `EvaluateFunctionAsync("window.<name>.<fn>")`: the page's
      reply, or a failure when `window.<name>` is not there. */
  datatype CallOutcome = Returned(value: EditorBridge.JsValue) | Unresolved

  /** A call into the page reaches the bridge only if it is published under the
      name the host addresses. */
  function HostCall(page: GuestPage, call: EditorBridge.BridgeCall): (r: (GuestPage, CallOutcome))
    ensures r.1.Unresolved? <==> page.bridgeName != HostBridgeName
    ensures r.1.Unresolved? ==> r.0 == page
    ensures r.0.bridgeName == page.bridgeName
    ensures r.1.Returned? ==> r.1.value == EditorBridge.Invoke(page.store, page.editor, call).2
  {
    if page.bridgeName == HostBridgeName then
      var inv := EditorBridge.Invoke(page.store, page.editor, call);
      (page.(store := inv.0, editor := inv.1), Returned(inv.2))
    else (page, Unresolved)
  }

  /** `parameter as IEditorSettingsDataContext`, overridden by the command's own
      field whenever that is set. */
  function SelectDataContext(field: Option<DataContext>, parameter: Option<DataContext>): (r: Option<DataContext>)
    ensures field.Some? ==> r == field
    ensures field.None? ==> r == parameter
    ensures r.None? <==> field.None? && parameter.None?
  {
    if field.Some? then field else parameter
  }

  datatype ExecuteOutcome =
    | NothingToEdit               // no data context: returns without effect
    | Faulted(error: HostError)   // creating the web view threw
    | Shown(context: DataContext) // the dialog is open on this context

  /** `Execute`: picks the data context, creates the shared web view if there is
      none yet, publishes the host object, tells the page to re-initialise and
      pushes the current value into it (neither call is awaited), then shows
      the dialog. */
  function Execute(cmd: Command, st: Statics, parameter: Option<DataContext>, page: GuestPage)
    : (r: (Statics, GuestPage, ExecuteOutcome))
    ensures SelectDataContext(cmd.editorSettingsDataContext, parameter).None? ==> r == (st, page, NothingToEdit)
    ensures st.webBrowser.Some? ==> r.0 == st
    ensures st.webBrowser.None? && r.0 != st ==>
      r.0.created == st.created + 1 && r.0.webBrowser.Some? && r.2.Shown?
    ensures r.2.Shown? ==> r.0.webBrowser.Some?
    ensures st.webBrowser.None? && r.2.Shown? ==>
      && r.0.created == st.created + 1
      && GetWebviewUrl(cmd.builder).Ok?
      && r.0.webBrowser == Some(Browser(GetWebviewUrl(cmd.builder).value))
    ensures !r.2.Shown? ==> r.0 == st
    ensures SelectDataContext(cmd.editorSettingsDataContext, parameter).Some? && !r.2.Faulted? ==> r.2.Shown?
    ensures r.2.Shown? ==> r.2.context == SelectDataContext(cmd.editorSettingsDataContext, parameter).value
    ensures r.2.Faulted? <==>
      SelectDataContext(cmd.editorSettingsDataContext, parameter).Some? && st.webBrowser.None? && cmd.builder.None?
  {
    var dc := SelectDataContext(cmd.editorSettingsDataContext, parameter);
    if dc.None? then (st, page, NothingToEdit)
    else
      var created :=
        if st.webBrowser.Some? then Ok(st)
        else match GetWebviewUrl(cmd.builder)
          case Ok(url) => Ok(Statics(Some(Browser(url)), st.created + 1))
          case Err(e) => Err(e);
      match created
      case Err(e) => (st, page, Faulted(e))
      case Ok(st') =>
        var currentValue := GetParamValue(dc);
        var p1 := HostCall(page, EditorBridge.WindowReopen).0;
        var p2 := HostCall(p1, EditorBridge.SetValue(currentValue)).0;
        (st', p2, Shown(dc.value))
  }

  /** The static web view keeps count of its creations: none until one exists,
      one from then on. */
  predicate OneBrowser(st: Statics) {
    st.created == (if st.webBrowser.Some? then 1 else 0)
  }

  function ExecuteAll(st: Statics, runs: seq<(Command, Option<DataContext>)>, page: GuestPage): Statics
    decreases |runs|
  {
    if runs == [] then st
    else
      var r := Execute(runs[0].0, st, runs[0].1, page);
      ExecuteAll(r.0, runs[1..], r.1)
  }

  /** However many commands execute, on whatever contexts, at most one web view
      is ever created. */
  lemma {:induction false} BrowserCreatedAtMostOnce(st: Statics, runs: seq<(Command, Option<DataContext>)>, page: GuestPage)
    requires OneBrowser(st)
    ensures OneBrowser(ExecuteAll(st, runs, page))
    ensures ExecuteAll(st, runs, page).created <= 1
    decreases |runs|
  {
    if runs != [] {
      var r := Execute(runs[0].0, st, runs[0].1, page);
      BrowserCreatedAtMostOnce(r.0, runs[1..], r.1);
    }
  }

  /** The first execution on a context, with a builder context to build the
      URL from, creates the web view and shows the dialog. */
  lemma FirstExecuteCreatesBrowser(cmd: Command, parameter: Option<DataContext>, page: GuestPage)
    requires cmd.builder.Some? && SelectDataContext(cmd.editorSettingsDataContext, parameter).Some?
    ensures var r := Execute(cmd, Startup, parameter, page);
      && r.2.Shown?
      && r.0.webBrowser == Some(Browser(GetWebviewUrl(cmd.builder).value))
      && r.0.created == 1
  {
  }

  /** How the host treats the failure of an awaited call into the page: the
      await throws, or the call yields null. Which one happens is the host's. */
  datatype FailureMode = Throws | YieldsNull

  datatype ClosedBy = OkButton | OtherClose

  /** The new property value, the page afterwards, and the closing handler's
      answer (`None` when the handler itself faulted). */
  datatype CloseOutcome = CloseOutcome(context: DataContext, page: GuestPage, permitted: Option<bool>)

  /** The value the host stores for a reply of `getSerializedData`. */
  function ReplyValue(v: EditorBridge.JsValue): Option<string> {
    match v
    case Str(s) => Some(s)
    case Undefined => None
    case Bool(_) => None  // not a reply getSerializedData gives
  }

  /** `ClosingAsync`: on OK, `beforeClose` is awaited and then the page's text
      replaces the property value; any other close leaves it alone. Closing is
      always permitted. */
  function Close(closedBy: ClosedBy, dc: DataContext, page: GuestPage, mode: FailureMode): (r: CloseOutcome)
    ensures closedBy.OtherClose? ==> r == CloseOutcome(dc, page, Some(true))
    ensures r.permitted.Some? ==> r.permitted.value
    ensures r.page.bridgeName == page.bridgeName
    ensures (closedBy.OkButton? && page.bridgeName == HostBridgeName) ==>
      && r.permitted == Some(true)
      && r.context.value == (if page.editor.buffer.Some? then Some(page.editor.buffer.value.text) else None)
  {
    if closedBy.OtherClose? then CloseOutcome(dc, page, Some(true))
    else
      var (p1, before) := HostCall(page, EditorBridge.BeforeClose);
      if before.Unresolved? && mode.Throws? then CloseOutcome(dc, p1, None)
      else
        var (p2, data) := HostCall(p1, EditorBridge.GetSerializedData);
        match data
        case Returned(v) => CloseOutcome(dc.(value := ReplyValue(v)), p2, Some(true))
        case Unresolved =>
          if mode.Throws? then CloseOutcome(dc, p2, None)
          else CloseOutcome(dc.(value := None), p2, Some(true))
  }

  /** As written, the page publishes its bridge under another name than the one
      the command calls, so an OK close never stores the editor's text (unless
      the property already held it): the property keeps its value or becomes
      null, depending on the host. */
  lemma OkCloseLosesEditsAsWritten(dc: DataContext, page: GuestPage, mode: FailureMode, text: string)
    requires page.bridgeName == EditorBridge.PublishedName
    requires page.editor.buffer.Some? && page.editor.buffer.value.text == text
    requires dc.value != Some(text)
    ensures Close(OkButton, dc, page, mode).context.value != Some(text)
    ensures Close(OkButton, dc, page, mode).context.value == (if mode.Throws? then dc.value else None)
  {
  }

  /** Likewise, `windowReopen` and `setValue` never reach the page as written:
      executing the command leaves the page exactly as it was. */
  lemma ExecuteLeavesPageAsWritten(cmd: Command, st: Statics, parameter: Option<DataContext>, page: GuestPage)
    requires page.bridgeName == EditorBridge.PublishedName
    ensures Execute(cmd, st, parameter, page).1 == page
  {
  }

  /** With the bridge published under the name the command calls, a dialog
      session does what it is meant to: executing re-initialises the page and
      loads the property's value into the editor, and an OK close stores
      exactly the editor's text, whitespace included. */
  lemma SessionRoundTripCorrected(cmd: Command, st: Statics, parameter: Option<DataContext>,
                                  page: GuestPage, edited: string, mode: FailureMode)
    requires page.bridgeName == HostBridgeName
    requires page.editor.buffer.Some?
    requires Execute(cmd, st, parameter, page).2.Shown?
    ensures var r := Execute(cmd, st, parameter, page);
      && !r.1.store.initd
      && r.1.editor.buffer.Some?
      && r.1.editor.buffer.value.text == GetParamValue(Some(r.2.context))
      && var typed := EditorBridge.Invoke(r.1.store, r.1.editor, EditorBridge.SetValue(edited));
         var closed := Close(OkButton, r.2.context, r.1.(store := typed.0, editor := typed.1), mode);
         closed.context.value == Some(edited) && closed.permitted == Some(true)
  {
  }
}

=== FILE: dynamic_base.dfy ===
/** The `dynamic-base` build plugin: in an IIFE build, every quoted `assets/...`
    literal of an entry chunk is wrapped in a call to a helper that is prepended to
    the chunk, and that helper resolves the asset against the script's own URL at
    run time. The regular expression of the plugin is modelled as a left-to-right
    scanner over the chunk text. */
module DynamicBase {
  import opened Wrappers
  import JsText

  const AssetsDir: string := "assets/"
  const HelperCall: string := "FGC__getAssetUrl("
  const HelperCallEnd: string := ")"
  const DistFolder: string := "Resources/frontendModuleDist/"

  /** The injected helper, exactly as the template literal yields it (its CR LF
      line ends read as LF, as ECMAScript prescribes for template literals). */
  const HelperCode: string :=
    "\n"
    + "function FGC__getAssetUrl(path) {\n"
    + "  if (typeof document !== 'undefined') {\n"
    + "  if(Forguncy?.StaticData?.IsDesignerPreview){\n"
    + "  return path;\n"
    + "  }\n"
    + "    var currentScript = document.currentScript;\n"
    + "    if (currentScript && currentScript.src) {\n"
    + "      var scriptUrl = new URL(currentScript.src);\n"
    + "      var basePath = scriptUrl.pathname.substring(0, scriptUrl.pathname.lastIndexOf('/') + 1);\n"
    + "      var res = scriptUrl.origin + basePath +\"Resources/frontendModuleDist/\"+ path;\n"
    + "      return res;\n"
    + "    }\n"
    + "  }\n"
    + "  return path;\n"
    + "}\n"

  /** The character class `['"\`]`. */
  predicate IsQuote(c: char) {
    c == '\'' || c == '"' || c == '`'
  }

  /** The language of the plugin's pattern: a quote, `assets/`, one or more
      non-quote characters, a quote. The two quotes need not be the same. */
  predicate IsAssetLiteral(t: string) {
    && |t| >= 10
    && IsQuote(t[0])
    && t[1..8] == AssetsDir
    && IsQuote(t[|t| - 1])
    && forall k :: 8 <= k < |t| - 1 ==> !IsQuote(t[k])
  }

  /** The first quote at or after `i`, or `|s|` when there is none. */
  function NextQuote(s: string, i: nat): (j: nat)
    requires i <= |s|
    ensures i <= j <= |s|
    decreases |s| - i
  {
    if i == |s| || IsQuote(s[i]) then i else NextQuote(s, i + 1)
  }

  /** `NextQuote` stops at the first quote: none lies before it. */
  lemma {:induction false} NextQuoteIsFirst(s: string, i: nat)
    requires i <= |s|
    ensures forall k :: i <= k < NextQuote(s, i) ==> !IsQuote(s[k])
    ensures NextQuote(s, i) < |s| ==> IsQuote(s[NextQuote(s, i)])
    decreases |s| - i
  {
    if i < |s| && !IsQuote(s[i]) {
      NextQuoteIsFirst(s, i + 1);
    }
  }

  /** The end (exclusive) of the match that starts at `i`, if one does. The
      greedy `[^'"\`]+` stops at the first quote, so a match is determined by
      where it starts. */
  function MatchAt(s: string, i: nat): (m: Option<nat>)
    requires i <= |s|
    ensures m.Some? ==> i + 10 <= m.value <= |s|
  {
    if i + 9 <= |s| && IsQuote(s[i]) && s[i + 1..i + 8] == AssetsDir then
      var j := NextQuote(s, i + 8);
      if i + 8 < j < |s| then Some(j + 1) else None
    else None
  }

  /** `MatchAt` finds only matches: what it reports is an asset literal. */
  lemma MatchAtSound(s: string, i: nat)
    requires i <= |s| && MatchAt(s, i).Some?
    ensures IsAssetLiteral(s[i..MatchAt(s, i).value])
  {
    var e := MatchAt(s, i).value;
    NextQuoteIsFirst(s, i + 8);
    SliceOfSlice(s, i, e, 1, 8);
    var t := s[i..e];
    forall k | 8 <= k < |t| - 1 ensures !IsQuote(t[k]) {
      assert t[k] == s[i + k];
    }
  }

  lemma SliceOfSlice(s: string, a: nat, b: nat, c: nat, d: nat)
    requires a <= b <= |s| && c <= d <= b - a
    ensures s[a..b][c..d] == s[a + c..a + d]
  {
    forall k | 0 <= k < d - c ensures s[a..b][c..d][k] == s[a + c..a + d][k] {
      assert s[a..b][c..d][k] == s[a..b][c + k] == s[a + c + k];
    }
  }

  /** `MatchAt` finds every match: whenever `s[i..e]` is an asset literal, the
      scanner reports exactly that match at `i`. */
  lemma MatchAtComplete(s: string, i: nat, e: nat)
    requires i <= e <= |s| && IsAssetLiteral(s[i..e])
    ensures MatchAt(s, i) == Some(e)
  {
    var t := s[i..e];
    SliceOfSlice(s, i, e, 1, 8);
    assert IsQuote(s[i]) by { assert s[i] == t[0]; }
    var j := NextQuote(s, i + 8);
    NextQuoteIsFirst(s, i + 8);
    assert IsQuote(s[e - 1]) by { assert s[e - 1] == t[|t| - 1]; }
    forall k | i + 8 <= k < e - 1 ensures !IsQuote(s[k]) {
      assert s[k] == t[k - i];
    }
    assert j == e - 1;
  }

  /** Where the scan resumes after position `i`: after the match there, or one
      character on. */
  function StepEnd(s: string, i: nat): (e: nat)
    requires i < |s|
    ensures i < e <= |s|
  {
    match MatchAt(s, i)
    case Some(e) => e
    case None => i + 1
  }

  /** What the scan takes at `i`: the match there, or the one character. */
  function HeadPiece(s: string, i: nat): (p: Piece)
    requires i < |s|
  {
    match MatchAt(s, i)
    case Some(e) => Literal(s[i..e])
    case None => Plain(s[i])
  }

  /** The piece taken at `i` is the text up to where the scan resumes. */
  lemma HeadSource(s: string, i: nat)
    requires i < |s|
    ensures PieceSource(HeadPiece(s, i)) == s[i..StepEnd(s, i)]
  {
  }

  /** The rewrite of `s[i..]`: a match is wrapped in the helper call and scanning
      resumes after it, as a global `replace` does; any other character is
      copied. */
  function RewriteFrom(s: string, i: nat): string
    requires i <= |s|
    decreases |s| - i
  {
    if i == |s| then "" else PieceOutput(HeadPiece(s, i)) + RewriteFrom(s, StepEnd(s, i))
  }

  /** The `chunk.code.replace(...)` pass. */
  function Rewrite(code: string): string {
    RewriteFrom(code, 0)
  }

  /** The rewrite as the scanner would write it in a loop; it produces the same
      text as the recursive definition. */
  method RewriteCode(code: string) returns (out: string)
    ensures out == Rewrite(code)
  {
    out := "";
    var i := 0;
    while i < |code|
      invariant 0 <= i <= |code|
      invariant out + RewriteFrom(code, i) == Rewrite(code)
      decreases |code| - i
    {
      var e := StepEnd(code, i);
      var piece := PieceOutput(HeadPiece(code, i));
      RewriteStep(code, i, out);
      out := out + piece;
      i := e;
    }
  }

  /** One step of the scan, appended to what is already written. */
  lemma RewriteStep(s: string, i: nat, out: string)
    requires i < |s|
    ensures out + RewriteFrom(s, i) == (out + PieceOutput(HeadPiece(s, i))) + RewriteFrom(s, StepEnd(s, i))
  {
    var a := PieceOutput(HeadPiece(s, i));
    var b := RewriteFrom(s, StepEnd(s, i));
    assert RewriteFrom(s, i) == a + b;
    assert out + (a + b) == (out + a) + b;
  }

  // ---------------------------------------------------------------------------
  // The rewrite seen as a tokenisation of the chunk into copied characters and
  // matched literals.

  datatype Piece = Plain(c: char) | Literal(text: string)

  function ScanFrom(s: string, i: nat): seq<Piece>
    requires i <= |s|
    decreases |s| - i
  {
    if i == |s| then [] else [HeadPiece(s, i)] + ScanFrom(s, StepEnd(s, i))
  }

  /** The input text a piece stands for. */
  function PieceSource(p: Piece): string {
    match p
    case Plain(c) => [c]
    case Literal(t) => t
  }

  /** The output text a piece becomes. */
  function PieceOutput(p: Piece): string {
    match p
    case Plain(c) => [c]
    case Literal(t) => HelperCall + t + HelperCallEnd
  }

  function Source(ps: seq<Piece>): string {
    if ps == [] then "" else PieceSource(ps[0]) + Source(ps[1..])
  }

  function Output(ps: seq<Piece>): string {
    if ps == [] then "" else PieceOutput(ps[0]) + Output(ps[1..])
  }

  function LiteralCount(ps: seq<Piece>): nat {
    if ps == [] then 0 else (if ps[0].Literal? then 1 else 0) + LiteralCount(ps[1..])
  }

  lemma SourceCons(p: Piece, rest: seq<Piece>)
    ensures Source([p] + rest) == PieceSource(p) + Source(rest)
  {
    assert ([p] + rest)[1..] == rest;
  }

  /** A piece spelling `s[i..e]` followed by pieces spelling `s[e..]` spell `s[i..]`. */
  lemma SpellStep(s: string, i: nat, e: nat, h: Piece, rest: seq<Piece>)
    requires i <= e <= |s| && PieceSource(h) == s[i..e] && Source(rest) == s[e..]
    ensures Source([h] + rest) == s[i..]
  {
    SourceCons(h, rest);
    assert s[i..] == s[i..e] + s[e..];
  }

  /** Nothing outside a match is lost or changed: the pieces spell the input. */
  lemma {:induction false} ScanSpellsInput(s: string, i: nat)
    requires i <= |s|
    ensures Source(ScanFrom(s, i)) == s[i..]
    decreases |s| - i
  {
    if i < |s| {
      var e := StepEnd(s, i);
      var h := HeadPiece(s, i);
      var rest := ScanFrom(s, e);
      assert ScanFrom(s, i) == [h] + rest;
      HeadSource(s, i);
      ScanSpellsInput(s, e);
      SpellStep(s, i, e, h, rest);
    }
  }

  /** Every wrapped piece is a match of the pattern. */
  lemma {:induction false} ScanLiteralsMatch(s: string, i: nat)
    requires i <= |s|
    ensures forall k :: 0 <= k < |ScanFrom(s, i)| && ScanFrom(s, i)[k].Literal? ==>
      IsAssetLiteral(ScanFrom(s, i)[k].text)
    decreases |s| - i
  {
    if i < |s| {
      var ps := ScanFrom(s, i);
      assert ps[1..] == ScanFrom(s, StepEnd(s, i));
      ScanLiteralsMatch(s, StepEnd(s, i));
      if MatchAt(s, i).Some? {
        MatchAtSound(s, i);
      }
      forall k | 0 < k < |ps| ensures ps[k] == ScanFrom(s, StepEnd(s, i))[k - 1] { }
    }
  }

  /** The source of the first `k` pieces, one piece at a time. */
  lemma SourcePrefix(ps: seq<Piece>, k: nat)
    requires 0 < k <= |ps|
    ensures Source(ps[..k]) == PieceSource(ps[0]) + Source(ps[1..][..k - 1])
  {
    assert ps[..k][1..] == ps[1..][..k - 1];
  }

  /** The position where the scan takes its `k`-th piece. */
  function PieceStart(s: string, i: nat, k: nat): (j: nat)
    requires i <= |s|
    ensures i <= j <= |s|
    decreases k
  {
    if k == 0 || i == |s| then i else PieceStart(s, StepEnd(s, i), k - 1)
  }

  /** The `k`-th piece is the one the scan takes at its start position. */
  lemma {:induction false} PieceAtStart(s: string, i: nat, k: nat)
    requires i <= |s| && k < |ScanFrom(s, i)|
    ensures PieceStart(s, i, k) < |s|
    ensures ScanFrom(s, i)[k] == HeadPiece(s, PieceStart(s, i, k))
    decreases k
  {
    var ps := ScanFrom(s, i);
    if k > 0 {
      var rest := ScanFrom(s, StepEnd(s, i));
      assert ps[1..] == rest;
      assert ps[k] == rest[k - 1];
      PieceAtStart(s, StepEnd(s, i), k - 1);
    }
  }

  /** The first `k` pieces spell out the text up to the `k`-th start position. */
  lemma {:induction false} PrefixReachesStart(s: string, i: nat, k: nat)
    requires i <= |s| && k <= |ScanFrom(s, i)|
    ensures i + |Source(ScanFrom(s, i)[..k])| == PieceStart(s, i, k)
    decreases k
  {
    var ps := ScanFrom(s, i);
    if k == 0 {
      assert ps[..0] == [];
    } else {
      var e := StepEnd(s, i);
      assert |Source(ps[..k])| == (e - i) + |Source(ScanFrom(s, e)[..k - 1])| by {
        assert ps[0] == HeadPiece(s, i) && ps[1..] == ScanFrom(s, e);
        SourcePrefix(ps, k);
        HeadSource(s, i);
      }
      PrefixReachesStart(s, e, k - 1);
    }
  }

  lemma PlainHeadUnmatched(s: string, j: nat)
    requires j < |s| && HeadPiece(s, j).Plain?
    ensures MatchAt(s, j).None?
  {
  }

  /** Matches are leftmost: no match starts at a copied character. */
  lemma ScanPlainIsUnmatched(s: string, i: nat, k: nat)
    requires i <= |s|
    requires k < |ScanFrom(s, i)| && ScanFrom(s, i)[k].Plain?
    ensures i + |Source(ScanFrom(s, i)[..k])| < |s|
    ensures MatchAt(s, i + |Source(ScanFrom(s, i)[..k])|).None?
  {
    PieceAtStart(s, i, k);
    PrefixReachesStart(s, i, k);
    PlainHeadUnmatched(s, PieceStart(s, i, k));
  }

  /** The rewrite is the output of the tokenisation. */
  lemma {:induction false} RewriteIsScanOutput(s: string, i: nat)
    requires i <= |s|
    ensures RewriteFrom(s, i) == Output(ScanFrom(s, i))
    decreases |s| - i
  {
    if i < |s| {
      var ps := ScanFrom(s, i);
      assert ps[1..] == ScanFrom(s, StepEnd(s, i));
      RewriteIsScanOutput(s, StepEnd(s, i));
    }
  }

  /** Each wrapped literal adds exactly the 18 characters of the call around it. */
  lemma {:induction false} RewriteLength(s: string, i: nat)
    requires i <= |s|
    ensures |RewriteFrom(s, i)| == |s| - i + 18 * LiteralCount(ScanFrom(s, i))
    decreases |s| - i
  {
    if i < |s| {
      var ps := ScanFrom(s, i);
      var p := HeadPiece(s, i);
      assert ps[1..] == ScanFrom(s, StepEnd(s, i));
      assert |PieceOutput(p)| == StepEnd(s, i) - i + (if p.Literal? then 18 else 0);
      RewriteLength(s, StepEnd(s, i));
    }
  }

  /** Text holding no asset literal passes through unchanged. */
  lemma {:induction false} RewriteWithoutLiteralsIsIdentity(s: string, i: nat)
    requires i <= |s|
    requires forall k :: i <= k <= |s| ==> MatchAt(s, k).None?
    ensures RewriteFrom(s, i) == s[i..]
    decreases |s| - i
  {
    if i < |s| {
      assert HeadPiece(s, i) == Plain(s[i]);
      RewriteWithoutLiteralsIsIdentity(s, i + 1);
      assert s[i..] == [s[i]] + s[i + 1..];
    }
  }

  /** A literal opened with one kind of quote and closed with another is wrapped too. */
  lemma MixedQuotesAreWrapped()
    ensures Rewrite("'assets/a\"") == "FGC__getAssetUrl('assets/a\")"
  {
    var s := "'assets/a\"";
    assert HeadPiece(s, 0) == Literal(s) && StepEnd(s, 0) == 10 by {
      assert s[1..8] == AssetsDir;
      assert NextQuote(s, 9) == 9;
      assert NextQuote(s, 8) == 9;
      assert s[0..10] == s;
    }
    assert RewriteFrom(s, 0) == PieceOutput(Literal(s)) by {
      assert RewriteFrom(s, 10) == "";
    }
  }

  /** `assets/` with nothing before the closing quote is not a match. */
  lemma EmptyAssetPathIsNotWrapped()
    ensures Rewrite("\"assets/\"") == "\"assets/\""
  {
    var s := "\"assets/\"";
    assert MatchAt(s, 0).None?;
    RewriteWithoutLiteralsIsIdentity(s, 0);
  }

  // ---------------------------------------------------------------------------
  // The bundle pass.

  /** One output file of the bundle: a code chunk or an emitted asset. */
  datatype BundleEntry = ChunkEntry(isEntry: bool, code: string) | AssetEntry(source: string)

  predicate IsEntryChunk(b: BundleEntry) {
    b.ChunkEntry? && b.isEntry
  }

  /** `generateBundle`: only an IIFE build is touched, and in it only entry chunks,
      whose code becomes the helper followed by the rewritten code. */
  function GenerateBundle(format: string, bundle: map<string, BundleEntry>): (r: map<string, BundleEntry>)
    ensures r.Keys == bundle.Keys
    ensures format != "iife" ==> r == bundle
    ensures forall f :: f in bundle && !IsEntryChunk(bundle[f]) ==> r[f] == bundle[f]
    ensures forall f :: f in bundle && IsEntryChunk(bundle[f]) && format == "iife" ==>
      && IsEntryChunk(r[f])
      && |HelperCode| <= |r[f].code|
      && r[f].code[..|HelperCode|] == HelperCode
      && r[f].code[|HelperCode|..] == Rewrite(bundle[f].code)
  {
    if format != "iife" then bundle
    else
      map f | f in bundle ::
        if IsEntryChunk(bundle[f]) then ChunkEntry(true, HelperCode + Rewrite(bundle[f].code))
        else bundle[f]
  }

  // ---------------------------------------------------------------------------
  // The injected helper, `FGC__getAssetUrl(path)`, evaluated in a page.

  /** A parsed `new URL(src)`; URL parsing is the browser's. */
  datatype Url = Url(origin: string, pathname: string)

  /** `document.currentScript`: its `src` attribute and that attribute parsed. */
  datatype Script = Script(src: string, url: Url)

  /** The global `Forguncy` binding: undeclared, or declared with the truthiness
      of `Forguncy.StaticData.IsDesignerPreview` (false when any link is missing). */
  datatype ForguncyGlobal = Undeclared | Declared(isDesignerPreview: bool)

  /** Where the helper runs: without a `document`, or in a page. */
  datatype PageEnv = NoDocument | Page(forguncy: ForguncyGlobal, currentScript: Option<Script>)

  /** Reading an undeclared global throws even behind `?.`. */
  datatype HelperError = ReferenceError

  /** `pathname.substring(0, pathname.lastIndexOf('/') + 1)`: the directory part. */
  function DirOf(pathname: string): (d: string)
    ensures |d| <= |pathname| && d == pathname[..|d|]
    ensures d == "" || d[|d| - 1] == '/'
    ensures forall k :: |d| <= k < |pathname| ==> pathname[k] != '/'
  {
    pathname[..JsText.LastIndexOf(pathname, '/') + 1]
  }

  /** `FGC__getAssetUrl(path)`. */
  function AssetUrl(env: PageEnv, path: string): (r: Result<string, HelperError>)
    ensures env.NoDocument? ==> r == Ok(path)
    ensures env.Page? && env.forguncy.Undeclared? ==> r == Err(ReferenceError)
    ensures env.Page? && env.forguncy == Declared(true) ==> r == Ok(path)
    ensures (env.Page? && env.forguncy == Declared(false) &&
             (env.currentScript.None? || env.currentScript.value.src == "")) ==> r == Ok(path)
    ensures (env.Page? && env.forguncy == Declared(false) &&
             env.currentScript.Some? && env.currentScript.value.src != "") ==>
        var u := env.currentScript.value.url;
        && r.Ok?
        && |r.value| == |u.origin| + |DirOf(u.pathname)| + |DistFolder| + |path|
        && r.value[..|u.origin|] == u.origin
        && r.value[|r.value| - |path|..] == path
        && r.value[|u.origin|..|r.value| - |path|] == DirOf(u.pathname) + DistFolder
  {
    match env
    case NoDocument => Ok(path)
    case Page(Undeclared, _) => Err(ReferenceError)
    case Page(Declared(preview), script) =>
      if preview then Ok(path)
      else if script.None? || script.value.src == "" then Ok(path)
      else
        var u := script.value.url;
        Ok(u.origin + DirOf(u.pathname) + DistFolder + path)
  }

  /** For a script served from `pathname`, the asset is looked up in the
      distribution folder beside it: the result is the origin, the script's
      directory, `Resources/frontendModuleDist/` and the path, in that order. */
  lemma AssetUrlBesideScript(origin: string, src: string, dir: string, file: string, path: string)
    requires src != "" && '/' !in file
    ensures AssetUrl(Page(Declared(false), Some(Script(src, Url(origin, dir + "/" + file)))), path)
      == Ok(origin + dir + "/" + DistFolder + path)
  {
    var p := dir + "/" + file;
    var k := JsText.LastIndexOf(p, '/');
    assert p[|dir|] == '/';
    assert k == |dir|;
    var d := DirOf(p);
    assert d == p[..|dir| + 1];
    assert d == dir + "/";
    assert origin + d == origin + dir + "/";
    assert d == dir + "/";
  }
}

=== FILE: editor_bridge.dfy ===
/** The editor component: the Monaco surface, the bridge object it publishes on
    `window` for the host, its change handler and the gate in front of the
    start-up effect. Monaco itself is reduced to its text buffer and cursor. */
module EditorBridge {
  import opened Wrappers
  import Atoms

  /** The `window` property the component publishes its callbacks under. */
  const PublishedName: string := "AiAssistantChatBridge"

  /** A 1-based Monaco position. */
  datatype Position = Position(line: int, column: int)

  /** The Monaco editor behind `editorRef`: its text, cursor and focus. */
  datatype Buffer = Buffer(text: string, cursor: Position, focused: bool)

  /** The component's refs and local state: `editorRef`, whether `monacoRef` is
      set, and `editorInitd`. */
  datatype Editor = Editor(buffer: Option<Buffer>, monacoSet: bool, editorInitd: bool)

  /** Before Monaco has mounted. */
  const Unmounted: Editor := Editor(None, false, false)

  /** A value crossing the bridge back to the caller. */
  datatype JsValue = Undefined | Bool(b: bool) | Str(s: string)

  /** The callbacks of the published bridge object. */
  datatype BridgeCall =
    | BeforeClose
    | HasUnsavedChanges
    | GetSerializedData
    | WindowReopen
    | SetValue(value: string)
    | EditorReady

  /** `onMount`: both refs are set and `editorInitd` becomes true. Monaco starts
      with an empty buffer, as no initial value is passed to it. */
  function OnMount(e: Editor): (r: Editor)
    ensures r.buffer.Some? && r.buffer.value.text == ""
    ensures r.monacoSet && r.editorInitd
  {
    Editor(Some(Buffer("", Position(1, 1), false)), true, true)
  }

  /** `onChange`: the placeholder flag is the raw emptiness of the new text, with
      a missing value read as `''`; whitespace counts as content. */
  function OnChange(st: Atoms.Store, next: Option<string>): (r: Atoms.Store)
    ensures r.editorNoData <==> next.None? || next.value == ""
    ensures r == st.(editorNoData := r.editorNoData)
  {
    st.(editorNoData := |next.GetOr("")| == 0)
  }

  /** One call of a bridge callback: the atoms and editor afterwards and the
      value handed back. */
  function Invoke(st: Atoms.Store, e: Editor, call: BridgeCall): (r: (Atoms.Store, Editor, JsValue))
    ensures call.BeforeClose? ==> r == (st, e, Bool(true))
    ensures call.HasUnsavedChanges? ==> r == (st, e, Bool(false))
    ensures call.GetSerializedData? ==>
      && r.0 == st && r.1 == e
      && r.2 == (if e.buffer.Some? then Str(e.buffer.value.text) else Undefined)
    ensures call.WindowReopen? ==> r == (st.(initd := false), e, Undefined)
    ensures call.SetValue? ==>
      && r.0 == st && r.2 == Undefined
      && r.1.monacoSet == e.monacoSet && r.1.editorInitd == e.editorInitd
      && (e.buffer.None? ==> r.1 == e)
      && (e.buffer.Some? ==> r.1.buffer == Some(Buffer(call.value, Position(1, 1), true)))
    ensures call.EditorReady? ==> r == (st, e, Bool(e.monacoSet))
  {
    match call
    case BeforeClose => (st, e, Bool(true))
    case HasUnsavedChanges => (st, e, Bool(false))
    case GetSerializedData =>
      (st, e, if e.buffer.Some? then Str(e.buffer.value.text) else Undefined)
    case WindowReopen => (st.(initd := false), e, Undefined)
    case SetValue(v) =>
      if e.buffer.Some? then
        (st, e.(buffer := Some(Buffer(v, Position(1, 1), true))), Undefined)
      else (st, e, Undefined)
    case EditorReady => (st, e, Bool(e.monacoSet))
  }

  /** What the host pushes with `setValue` is exactly what it reads back with
      `getSerializedData`: no trimming or other normalisation. */
  lemma SetValueThenSerialize(st: Atoms.Store, e: Editor, v: string)
    requires e.buffer.Some?
    ensures var after := Invoke(st, e, SetValue(v));
      Invoke(after.0, after.1, GetSerializedData).2 == Str(v)
  {
  }

  /** Events the component sees: Monaco mounting, a host call, a content change. */
  datatype EditorEvent = Mount | Call(call: BridgeCall) | Change(next: Option<string>)

  function Step(s: (Atoms.Store, Editor), ev: EditorEvent): (Atoms.Store, Editor) {
    match ev
    case Mount => (s.0, OnMount(s.1))
    case Call(c) => var r := Invoke(s.0, s.1, c); (r.0, r.1)
    case Change(next) => (OnChange(s.0, next), s.1)
  }

  function Run(s: (Atoms.Store, Editor), evs: seq<EditorEvent>): (Atoms.Store, Editor)
    decreases |evs|
  {
    if evs == [] then s else Run(Step(s, evs[0]), evs[1..])
  }

  /** `editorReady()` answers true exactly once Monaco has mounted, whatever
      else happened, and the editor handle exists exactly then too. */
  lemma {:induction false} EditorReadyIffMounted(s: (Atoms.Store, Editor), evs: seq<EditorEvent>)
    requires s.1 == Unmounted
    ensures var r := Run(s, evs);
      && (Invoke(r.0, r.1, EditorReady).2 == Bool(true) <==> Mount in evs)
      && (r.1.buffer.Some? <==> Mount in evs)
  {
    MountedStaysMounted(s, evs);
  }

  lemma {:induction false} MountedStaysMounted(s: (Atoms.Store, Editor), evs: seq<EditorEvent>)
    requires s.1.buffer.Some? <==> s.1.monacoSet
    ensures var r := Run(s, evs);
      && (r.1.monacoSet <==> s.1.monacoSet || Mount in evs)
      && (r.1.buffer.Some? <==> r.1.monacoSet)
    decreases |evs|
  {
    if evs != [] {
      MountedStaysMounted(Step(s, evs[0]), evs[1..]);
      assert evs == [evs[0]] + evs[1..];
    }
  }

  /** After a last change to non-empty text the placeholder is hidden, even when
      the text is only blanks. */
  lemma WhitespaceIsContent(st: Atoms.Store)
    ensures !OnChange(st, Some(" \n")).editorNoData
  {
  }
}

=== FILE: editor_init.dfy ===
/** The start-up effect inside the editor: once the application is initialised
    it (re)registers the two completion providers, loads the initial value into
    the editor, puts the cursor at the end of the text and sets the placeholder
    flag. Monaco's registration of providers is modelled as a registry of live
    and disposed provider handles. */
module EditorInit {
  import opened Wrappers
  import Atoms
  import Completion
  import EditorBridge

  /** Monaco's line breaks: `\r\n`, `\r` or `\n`. */
  predicate IsBreakChar(c: char) {
    c == '\n' || c == '\r'
  }

  /** The position after the last character: the last line's number and its
      maximum column. */
  function EndPosition(t: string): (p: EditorBridge.Position)
    ensures p.line >= 1 && 1 <= p.column <= |t| + 1
    decreases |t|
  {
    if |t| == 0 then EditorBridge.Position(1, 1)
    else if IsBreakChar(t[|t| - 1]) then
      var body := if t[|t| - 1] == '\n' && |t| >= 2 && t[|t| - 2] == '\r' then t[..|t| - 2] else t[..|t| - 1];
      EditorBridge.Position(EndPosition(body).line + 1, 1)
    else
      var p := EndPosition(t[..|t| - 1]);
      EditorBridge.Position(p.line, p.column + 1)
  }

  /** The end position is just after the last line: the column counts back to
      the last line break, and the line is 1 exactly when there is none. */
  lemma {:induction false} EndPositionAfterLastBreak(t: string)
    ensures var p := EndPosition(t);
      && (forall k :: |t| - (p.column - 1) <= k < |t| ==> !IsBreakChar(t[k]))
      && (p.column - 1 < |t| ==> IsBreakChar(t[|t| - p.column]))
      && (p.line == 1 <==> forall k :: 0 <= k < |t| ==> !IsBreakChar(t[k]))
    decreases |t|
  {
    if |t| > 0 {
      if IsBreakChar(t[|t| - 1]) {
        var body := if t[|t| - 1] == '\n' && |t| >= 2 && t[|t| - 2] == '\r' then t[..|t| - 2] else t[..|t| - 1];
        EndPositionAfterLastBreak(body);
      } else {
        var u := t[..|t| - 1];
        EndPositionAfterLastBreak(u);
        forall k | 0 <= k < |u| ensures u[k] == t[k] { }
      }
    }
  }

  /** The end position counted left to right, as a text buffer splits lines. */
  method CountEndPosition(t: string) returns (line: int, column: int)
    ensures EditorBridge.Position(line, column) == EndPosition(t)
  {
    line, column := 1, 1;
    var i := 0;
    while i < |t|
      invariant 0 <= i <= |t|
      invariant EditorBridge.Position(line, column) == EndPosition(t[..i])
      invariant !(0 < i < |t| && t[i - 1] == '\r' && t[i] == '\n')
      decreases |t| - i
    {
      if t[i] == '\r' && i + 1 < |t| && t[i + 1] == '\n' {
        EndPositionExtendPair(t, i);
        line, column := line + 1, 1;
        i := i + 2;
      } else if IsBreakChar(t[i]) {
        EndPositionExtendBreak(t, i);
        line, column := line + 1, 1;
        i := i + 1;
      } else {
        EndPositionExtendChar(t, i);
        column := column + 1;
        i := i + 1;
      }
    }
    assert t[..i] == t;
  }

  /** One more character that is not a line break moves one column on. */
  lemma EndPositionExtendChar(t: string, i: nat)
    requires i < |t| && !IsBreakChar(t[i])
    ensures EndPosition(t[..i + 1]) == EditorBridge.Position(EndPosition(t[..i]).line, EndPosition(t[..i]).column + 1)
  {
    var u := t[..i + 1];
    assert u[..|u| - 1] == t[..i];
  }

  /** A lone `\r` or `\n` starts a new line. */
  lemma EndPositionExtendBreak(t: string, i: nat)
    requires i < |t| && IsBreakChar(t[i]) && !(0 < i && t[i - 1] == '\r' && t[i] == '\n')
    ensures EndPosition(t[..i + 1]) == EditorBridge.Position(EndPosition(t[..i]).line + 1, 1)
  {
    var u := t[..i + 1];
    assert u[..|u| - 1] == t[..i];
  }

  /** A `\r\n` pair starts one new line, not two. */
  lemma EndPositionExtendPair(t: string, i: nat)
    requires i + 1 < |t| && t[i] == '\r' && t[i + 1] == '\n'
    ensures EndPosition(t[..i + 2]) == EditorBridge.Position(EndPosition(t[..i]).line + 1, 1)
  {
    var w := t[..i + 2];
    assert w[..|w| - 2] == t[..i];
  }

  /** The two hint lists handed to `initHint`. */
  datatype HintInfo = HintInfo(keywordList: seq<Completion.HintEntry>, variableList: seq<Completion.HintEntry>)

  /** What the only call site passes. */
  const NoHints: HintInfo := HintInfo([], [])

  /** A registered completion provider: its handle, trigger and entries. */
  datatype Provider = Provider(id: nat, trigger: char, entries: seq<Completion.HintEntry>)

  /** The module-level `suggestionsInst` and `variableInst`, the handles already
      disposed, and the next handle Monaco will give out. */
  datatype Registry = Registry(keyword: Option<Provider>, variable: Option<Provider>, disposed: set<nat>, nextId: nat)

  const NoProviders: Registry := Registry(None, None, {}, 0)

  /** Every handle ever given out is either live or disposed, and the two live
      ones are distinct and not disposed. */
  ghost predicate NoLeak(reg: Registry) {
    && (reg.keyword.Some? ==> reg.keyword.value.id < reg.nextId && reg.keyword.value.id !in reg.disposed)
    && (reg.variable.Some? ==> reg.variable.value.id < reg.nextId && reg.variable.value.id !in reg.disposed)
    && (reg.keyword.Some? && reg.variable.Some? ==> reg.keyword.value.id != reg.variable.value.id)
    && (forall id :: id in reg.disposed ==> id < reg.nextId)
    && (forall id: nat :: id < reg.nextId ==>
          id in reg.disposed
          || (reg.keyword.Some? && reg.keyword.value.id == id)
          || (reg.variable.Some? && reg.variable.value.id == id))
  }

  function Dispose(disposed: set<nat>, p: Option<Provider>): set<nat> {
    if p.Some? then disposed + {p.value.id} else disposed
  }

  /** `initHint`: each kind's previous provider is disposed before a new one is
      registered: `%` over the keyword list, `=` over the variable list. */
  function InitHint(reg: Registry, hints: HintInfo): (r: Registry)
    ensures r.keyword == Some(Provider(reg.nextId, '%', hints.keywordList))
    ensures r.variable == Some(Provider(reg.nextId + 1, '=', hints.variableList))
    ensures reg.keyword.Some? ==> reg.keyword.value.id in r.disposed
    ensures reg.variable.Some? ==> reg.variable.value.id in r.disposed
  {
    var d1 := Dispose(reg.disposed, reg.keyword);
    var d2 := Dispose(d1, reg.variable);
    Registry(Some(Provider(reg.nextId, '%', hints.keywordList)),
             Some(Provider(reg.nextId + 1, '=', hints.variableList)),
             d2, reg.nextId + 2)
  }

  /** However often the effect re-runs, no provider is left registered twice. */
  lemma InitHintKeepsNoLeak(reg: Registry, hints: HintInfo)
    requires NoLeak(reg)
    ensures NoLeak(InitHint(reg, hints))
  {
    var r := InitHint(reg, hints);
    forall id: nat | id < r.nextId
      ensures id in r.disposed
        || (r.keyword.Some? && r.keyword.value.id == id)
        || (r.variable.Some? && r.variable.value.id == id)
    {
      if id < reg.nextId {
        assert id in reg.disposed
          || (reg.keyword.Some? && reg.keyword.value.id == id)
          || (reg.variable.Some? && reg.variable.value.id == id);
      }
    }
  }

  /** The effect of `EditorInit` on a change of `initd`. It is mounted only
      behind the gate of the editor component, so the editor exists. */
  function InitEffect(st: Atoms.Store, e: EditorBridge.Editor, reg: Registry)
    : (r: (Atoms.Store, EditorBridge.Editor, Registry))
    requires e.buffer.Some?
    ensures !st.initd ==> r == (st, e, reg)
    ensures st.initd ==>
      && r.1.buffer.Some?
      && r.1.buffer.value.text == st.initValue
      && r.1.buffer.value.cursor == EndPosition(st.initValue)
      && (r.0.editorNoData <==> st.initValue == "")
      && r.0 == st.(editorNoData := r.0.editorNoData)
      && r.2 == InitHint(reg, NoHints)
  {
    if !st.initd then (st, e, reg)
    else
      var v := st.initValue;
      (st.(editorNoData := v == ""),
       e.(buffer := Some(EditorBridge.Buffer(v, EndPosition(v), true))),
       InitHint(reg, NoHints))
  }

  /** The providers the start-up effect registers never suggest anything: both
      hint lists are empty, so they answer nothing or an empty list. */
  lemma RegisteredProvidersSuggestNothing(st: Atoms.Store, e: EditorBridge.Editor, reg: Registry,
                                          line: string, lineNumber: int, column: int)
    requires e.editorInitd && e.buffer.Some? && st.initd
    requires 1 <= column <= |line| + 1
    ensures var r := InitEffect(st, e, reg).2;
      var k := Completion.ProvideCompletionItems(line, lineNumber, column, r.keyword.value.trigger, r.keyword.value.entries);
      var v := Completion.ProvideCompletionItems(line, lineNumber, column, r.variable.value.trigger, r.variable.value.entries);
      (k.None? || k.value == []) && (v.None? || v.value == [])
  {
  }
}

=== FILE: editor_locale.dfy ===
/** The Monaco loader configuration chosen at start-up from the browser bridge's
    `RS.Lang` resource string. */
module EditorLocale {
  import opened Wrappers

  const MonacoPath: string := "public/monacoEditor"

  /** The lookup `monacoEditorLangMap[lang]` on a plain object literal: one of
      the four own entries, a member inherited from `Object.prototype` (a
      function or, for `__proto__`, the prototype object itself; never a locale
      string), or `undefined`. */
  datatype LocaleEntry = Mapped(locale: string) | Inherited(name: string) | Unmapped

  /** What `window.forguncyWebBrowserBridge` is: absent, or present with the
      `RS.Lang` resource, which may be missing or empty. */
  datatype RsBridge = NoBridge | Bridge(lang: Option<string>)

  datatype LoaderConfig = LoaderConfig(vsPath: string, availableLanguage: LocaleEntry)

  /** Reading a property of an undefined bridge. */
  datatype LocaleError = TypeError

  /** The members every object literal inherits from `Object.prototype`. */
  const PrototypeMembers: set<string> := {
    "constructor", "hasOwnProperty", "isPrototypeOf", "propertyIsEnumerable",
    "toLocaleString", "toString", "valueOf", "__proto__",
    "__defineGetter__", "__defineSetter__", "__lookupGetter__", "__lookupSetter__"
  }

  /** `RS.Lang || 'en'`. */
  function EffectiveLang(lang: Option<string>): (l: string)
    ensures l != ""
    ensures lang.Some? && lang.value != "" ==> l == lang.value
    ensures l == "en" <==> lang.None? || lang.value == "" || lang.value == "en"
  {
    if lang.Some? && lang.value != "" then lang.value else "en"
  }

  function LookupLocale(lang: string): (e: LocaleEntry)
    ensures e.Mapped? <==> lang in {"en", "cn", "ja", "kr"}
    ensures e.Inherited? <==> lang in PrototypeMembers
    ensures e == Mapped("") <==> lang == "en"
  {
    if lang == "en" then Mapped("")
    else if lang == "cn" then Mapped("zh-cn")
    else if lang == "ja" then Mapped("ja")
    else if lang == "kr" then Mapped("ko")
    else if lang in PrototypeMembers then Inherited(lang)
    else Unmapped
  }

  /** `initEditorLang`: the loader configuration, or the `TypeError` thrown
      when the bridge is not there. */
  function InitEditorLang(bridge: RsBridge): (r: Result<LoaderConfig, LocaleError>)
    ensures bridge.NoBridge? <==> r.Err?
    ensures r.Ok? ==> r.value.vsPath == MonacoPath
    ensures r.Ok? ==> r.value.availableLanguage == LookupLocale(EffectiveLang(bridge.lang))
  {
    match bridge
    case NoBridge => Err(TypeError)
    case Bridge(lang) => Ok(LoaderConfig(MonacoPath, LookupLocale(EffectiveLang(lang))))
  }

  /** The evidently intended `initEditorLang`, reading
      `window.forguncyWebBrowserBridge?.RS?.Lang || 'en'`: it never throws, agrees
      with `InitEditorLang` wherever that succeeds, and without a bridge chooses
      Monaco's built-in English. */
  function InitEditorLangCorrected(bridge: RsBridge): (r: LoaderConfig)
    ensures r.vsPath == MonacoPath
    ensures bridge.Bridge? ==> InitEditorLang(bridge) == Ok(r)
    ensures bridge.NoBridge? ==> r.availableLanguage == Mapped("")
  {
    var lang := if bridge.Bridge? then bridge.lang else None;
    LoaderConfig(MonacoPath, LookupLocale(EffectiveLang(lang)))
  }

  /** The four known codes map to Monaco's locale names, and a missing or
      empty resource falls back to English, which is Monaco's built-in (empty)
      locale. */
  lemma KnownCodes()
    ensures InitEditorLang(Bridge(Some("cn"))) == Ok(LoaderConfig(MonacoPath, Mapped("zh-cn")))
    ensures InitEditorLang(Bridge(Some("ja"))) == Ok(LoaderConfig(MonacoPath, Mapped("ja")))
    ensures InitEditorLang(Bridge(Some("kr"))) == Ok(LoaderConfig(MonacoPath, Mapped("ko")))
    ensures InitEditorLang(Bridge(None)) == Ok(LoaderConfig(MonacoPath, Mapped("")))
    ensures InitEditorLang(Bridge(Some(""))) == Ok(LoaderConfig(MonacoPath, Mapped("")))
  {
  }

  /** The key is `kr`: the code `ko`, which the host's language accessor is
      declared to return, has no entry. */
  lemma KoreanCodeIsUnmapped()
    ensures InitEditorLang(Bridge(Some("ko"))) == Ok(LoaderConfig(MonacoPath, Unmapped))
  {
    assert "ko" !in PrototypeMembers;
  }

  /** Every configuration the function produces names a locale from a fixed
      set, or none at all. */
  lemma LocaleIsOneOfFour(bridge: RsBridge)
    requires InitEditorLang(bridge).Ok?
    requires InitEditorLang(bridge).value.availableLanguage.Mapped?
    ensures InitEditorLang(bridge).value.availableLanguage.locale in {"", "zh-cn", "ja", "ko"}
  {
  }
}

=== FILE: host_object.dfy ===
/** The host object the designer exposes to the configurator page: read-only
    accessors over the builder context and the edited property, and `Save`. The
    host's services (theme, list views, custom configuration) are fields of a
    builder-context record. */
module HostAccessors {
  import opened Wrappers
  import Atoms

  /** What the accessors read from the designer. */
  datatype BuilderContext = BuilderContext(
    pageName: string,
    themeColors: Option<map<string, Option<string>>>,  // `ThemeColors`; values may be null
    pageListViews: seq<Atoms.ListViewInfo>,            // `EnumAllListViewInfos(PageName)`
    debug: bool,                                        // custom config value "debug"
    dist: Option<string>)                               // custom config value "dist"

  /** The edited property: its `Value?.ToString()`. */
  datatype DataContext = DataContext(value: Option<string>)

  datatype HostError = InvalidOperation | NullReference

  /** The JSON array text `System.Text.Json` writes for `infos`; the literal
      `"[]"` is `ListViewJson([])`. */
  datatype ListViewJson = ListViewJson(infos: seq<Atoms.ListViewInfo>)

  /** Where the web view is pointed: a development server, or a static file
      below the plugin's resources. */
  datatype WebviewUrl = DevServer(project: string, mode: string) | StaticFile(path: string)

  const ThemeKey: string := "Accent1"
  const PageSuffix: string := "\\index.html?pluginName=dhtmlxGantt"

  /** The colour rule of `GetAccent1Color`: a 9-character `#AARRGGBB` loses its
      alpha pair and becomes `#RRGGBB`; anything else becomes `""`. */
  function NormalizeThemeColor(color: Option<string>): (r: string)
    ensures r == "" || (|r| == 7 && r[0] == '#')
    ensures r != "" <==> color.Some? && |color.value| == 9 && color.value[0] == '#'
    ensures r != "" ==> r[1..] == color.value[3..]
  {
    if color.Some? && color.value != "" && color.value[0] == '#' && |color.value| == 9 then
      "#" + color.value[3..]
    else ""
  }

  /** Round trip with the colour format: `#` + alpha + `RRGGBB` comes back as
      `#RRGGBB`, whatever the alpha pair. */
  lemma NormalizeDropsAlpha(alpha: string, rgb: string)
    requires |alpha| == 2 && |rgb| == 6
    ensures NormalizeThemeColor(Some("#" + alpha + rgb)) == "#" + rgb
  {
    assert ("#" + alpha + rgb)[3..] == rgb;
  }

  /** `GetAccent1Color`. */
  function GetAccent1Color(ctx: Option<BuilderContext>): (r: string)
    ensures r == "" || (|r| == 7 && r[0] == '#')
    ensures (ctx.None? || ctx.value.themeColors.None? || ThemeKey !in ctx.value.themeColors.value) ==> r == ""
    ensures r != "" <==>
      && ctx.Some? && ctx.value.themeColors.Some? && ThemeKey in ctx.value.themeColors.value
      && var c := ctx.value.themeColors.value[ThemeKey];
         c.Some? && |c.value| == 9 && c.value[0] == '#'
    ensures r != "" ==> r[1..] == ctx.value.themeColors.value[ThemeKey].value[3..]
  {
    if ctx.None? then ""
    else
      var colors := ctx.value.themeColors;
      if colors.Some? && ThemeKey in colors.value then NormalizeThemeColor(colors.value[ThemeKey])
      else ""
  }

  /** `GetParamValue`: the property's text, `""` for a missing context or value. */
  function GetParamValue(dc: Option<DataContext>): (r: string)
    ensures dc.None? || dc.value.value.None? ==> r == ""
    ensures dc.Some? && dc.value.value.Some? ==> r == dc.value.value.value
  {
    if dc.Some? then dc.value.value.GetOr("") else ""
  }

  /** `Save`: the property's value becomes `data`; a missing context throws. */
  function Save(dc: Option<DataContext>, data: string): (r: Result<DataContext, HostError>)
    ensures dc.None? <==> r == Err(NullReference)
    ensures r.Ok? ==> r.value.value == Some(data)
  {
    if dc.None? then Err(NullReference) else Ok(dc.value.(value := Some(data)))
  }

  /** What is saved is what the next `GetParamValue` returns. */
  lemma SaveThenGet(dc: DataContext, data: string)
    ensures Save(Some(dc), data).Ok?
    ensures GetParamValue(Some(Save(Some(dc), data).value)) == data
  {
  }

  /** `GetAllListviewInPage`: the page's list views, or `"[]"` without a context. */
  function GetAllListviewInPage(ctx: Option<BuilderContext>): (r: ListViewJson)
    ensures ctx.None? ==> r.infos == []
    ensures ctx.Some? ==> r.infos == ctx.value.pageListViews
  {
    if ctx.None? then ListViewJson([]) else ListViewJson(ctx.value.pageListViews)
  }

  /** `GetWebviewUrl`: the development server in debug mode, otherwise the
      static index page inside the `dist` folder (a null folder reads as `""`
      in the interpolated path). Without a context it throws. */
  function GetWebviewUrl(ctx: Option<BuilderContext>): (r: Result<WebviewUrl, HostError>)
    ensures ctx.None? <==> r == Err(InvalidOperation)
    ensures ctx.Some? && ctx.value.debug ==> r == Ok(DevServer("GanttConfigurator", "plugin-dev"))
    ensures ctx.Some? && !ctx.value.debug ==>
      var folder := ctx.value.dist.GetOr("");
      && r.Ok? && r.value.StaticFile?
      && |r.value.path| == |folder| + |PageSuffix|
      && r.value.path[..|folder|] == folder
      && r.value.path[|folder|..] == PageSuffix
  {
    if ctx.None? then Err(InvalidOperation)
    else if ctx.value.debug then Ok(DevServer("GanttConfigurator", "plugin-dev"))
    else Ok(StaticFile(ctx.value.dist.GetOr("") + PageSuffix))
  }
}

=== FILE: js_text.dfy ===
/** The few string primitives of JavaScript the model needs, over `seq<char>`. */
module JsText {

  /** The characters `String.prototype.trim` removes: WhiteSpace (tab, vertical tab,
      form feed, space, no-break space, byte order mark and the space separators)
      and LineTerminator (line feed, carriage return, line and paragraph separator),
      as section 12.2 and 12.3 of ECMAScript 2024 list them. */
  predicate IsJsWhitespace(c: char) {
    || c == '\t' || c == '\n' || c == '\U{000B}' || c == '\U{000C}' || c == '\r'
    || c == ' ' || c == '\U{00A0}' || c == '\U{1680}'
    || ('\U{2000}' <= c <= '\U{200A}')
    || c == '\U{2028}' || c == '\U{2029}' || c == '\U{202F}' || c == '\U{205F}'
    || c == '\U{3000}' || c == '\U{FEFF}'
  }

  /** `s.trim() === ''`, equivalently `!s.trim()`: nothing but whitespace. */
  predicate IsBlank(s: string) {
    forall i :: 0 <= i < |s| ==> IsJsWhitespace(s[i])
  }

  /** `s.trimStart()`. */
  function TrimStart(s: string): string
    decreases |s|
  {
    if |s| > 0 && IsJsWhitespace(s[0]) then TrimStart(s[1..]) else s
  }

  /** `s.trimEnd()`. */
  function TrimEnd(s: string): string
    decreases |s|
  {
    if |s| > 0 && IsJsWhitespace(s[|s| - 1]) then TrimEnd(s[..|s| - 1]) else s
  }

  /** `s.trim()`. */
  function Trim(s: string): string {
    TrimEnd(TrimStart(s))
  }

  /** Trimming the front leaves nothing exactly for blank text, and otherwise
      stops at a character that is not white space. */
  lemma {:induction false} TrimStartBlank(s: string)
    ensures TrimStart(s) == "" <==> IsBlank(s)
    ensures TrimStart(s) != "" ==> !IsJsWhitespace(TrimStart(s)[0])
    decreases |s|
  {
    if |s| > 0 && IsJsWhitespace(s[0]) {
      TrimStartBlank(s[1..]);
      if IsBlank(s[1..]) {
        forall i | 0 <= i < |s| ensures IsJsWhitespace(s[i]) {
          if i > 0 {
            assert s[i] == s[1..][i - 1];
          }
        }
      }
      if IsBlank(s) {
        forall i | 0 <= i < |s[1..]| ensures IsJsWhitespace(s[1..][i]) {
          assert s[1..][i] == s[i + 1];
        }
      }
    } else if |s| > 0 {
      assert !IsJsWhitespace(s[0]);
    }
  }

  /** Trimming the back leaves nothing exactly for blank text. */
  lemma {:induction false} TrimEndBlank(s: string)
    ensures TrimEnd(s) == "" <==> IsBlank(s)
    decreases |s|
  {
    if |s| > 0 && IsJsWhitespace(s[|s| - 1]) {
      var u := s[..|s| - 1];
      TrimEndBlank(u);
      if IsBlank(u) {
        forall i | 0 <= i < |s| ensures IsJsWhitespace(s[i]) {
          if i < |s| - 1 {
            assert s[i] == u[i];
          }
        }
      }
      if IsBlank(s) {
        forall i | 0 <= i < |u| ensures IsJsWhitespace(u[i]) {
          assert u[i] == s[i];
        }
      }
    } else if |s| > 0 {
      assert !IsJsWhitespace(s[|s| - 1]);
    }
  }

  /** The source's emptiness tests after trimming (`s.trim() === ''` and `!s.trim()`)
      agree with `IsBlank`, in both directions. */
  lemma TrimEmptyIffBlank(s: string)
    ensures Trim(s) == "" <==> IsBlank(s)
  {
    var t := TrimStart(s);
    TrimStartBlank(s);
    TrimEndBlank(t);
    if t != "" {
      assert !IsJsWhitespace(t[0]);
    }
  }

  /** ASCII lower-casing, standing in for `String.prototype.toLowerCase`. */
  function LowerChar(c: char): char {
    if 'A' <= c <= 'Z' then (c as int + 32) as char else c
  }

  function ToLower(s: string): (r: string)
    ensures |r| == |s|
    ensures forall i :: 0 <= i < |s| && 'A' <= s[i] <= 'Z' ==> r[i] as int == s[i] as int + 32
    ensures forall i :: 0 <= i < |s| && !('A' <= s[i] <= 'Z') ==> r[i] == s[i]
    ensures forall i :: 0 <= i < |r| ==> !('A' <= r[i] <= 'Z')
  {
    seq(|s|, i requires 0 <= i < |s| => LowerChar(s[i]))
  }

  /** Lower-casing twice is lower-casing once, so the filter's two
      `toLowerCase` calls compare like with like. */
  lemma ToLowerIdempotent(s: string)
    ensures ToLower(ToLower(s)) == ToLower(s)
  {
  }

  /** `needle` occurs in `hay` starting at index `k`. */
  predicate OccursAt(hay: string, needle: string, k: nat) {
    k + |needle| <= |hay| && hay[k..k + |needle|] == needle
  }

  /** `hay.includes(needle)`, as a left-to-right search. */
  function Includes(hay: string, needle: string): (b: bool)
    ensures b <==> exists k: nat :: OccursAt(hay, needle, k)
    decreases |hay|
  {
    if |needle| > |hay| then
      assert forall k: nat :: !OccursAt(hay, needle, k);
      false
    else if hay[..|needle|] == needle then
      assert OccursAt(hay, needle, 0);
      true
    else
      var rest := Includes(hay[1..], needle);
      ShiftOccurrence(hay, needle);
      rest
  }

  lemma ShiftOccurrence(hay: string, needle: string)
    requires |needle| <= |hay| && hay[..|needle|] != needle
    ensures (exists k: nat :: OccursAt(hay[1..], needle, k)) <==> (exists k: nat :: OccursAt(hay, needle, k))
  {
    if exists k: nat :: OccursAt(hay, needle, k) {
      var k: nat :| OccursAt(hay, needle, k);
      assert k != 0;
      DropSlice(hay, k - 1, k - 1 + |needle|);
      assert OccursAt(hay[1..], needle, k - 1);
    }
    if exists k: nat :: OccursAt(hay[1..], needle, k) {
      var k: nat :| OccursAt(hay[1..], needle, k);
      DropSlice(hay, k, k + |needle|);
      assert OccursAt(hay, needle, k + 1);
    }
  }

  /** A slice of the tail is the slice one place further on. */
  lemma DropSlice(hay: string, a: nat, b: nat)
    requires a <= b < |hay|
    ensures hay[1..][a..b] == hay[a + 1..b + 1]
  {
    forall i | 0 <= i < b - a ensures hay[1..][a..b][i] == hay[a + 1..b + 1][i] {
      assert hay[1..][a..b][i] == hay[a + 1 + i];
    }
  }

  /** `hay.toLowerCase().includes(needle.toLowerCase())`. */
  predicate IncludesIgnoringCase(hay: string, needle: string) {
    Includes(ToLower(hay), ToLower(needle))
  }

  /** Every string includes the empty string, so an empty search matches everything. */
  lemma EmptyNeedleMatchesAll(hay: string)
    ensures IncludesIgnoringCase(hay, "")
  {
    assert OccursAt(ToLower(hay), ToLower(""), 0);
  }

  /** `s.lastIndexOf(c)`: the last index holding `c`, or -1. */
  function LastIndexOf(s: string, c: char): (k: int)
    ensures -1 <= k < |s|
    ensures k >= 0 ==> s[k] == c
    ensures forall j :: k < j < |s| ==> s[j] != c
  {
    if |s| == 0 then -1
    else if s[|s| - 1] == c then |s| - 1
    else LastIndexOf(s[..|s| - 1], c)
  }
}

=== FILE: playground.dfy ===
/** The playground shell: two panel-visibility toggles that never hide both
    panels, the shared panel width, and the watcher that polls the editor on an
    interval and hands changed text to the preview. Time is reduced to discrete
    ticks of the interval. */
module PlayGround {
  import opened Wrappers

  // ---------------------------------------------------------------------------
  // Panels.

  datatype Panels = Panels(showEditor: bool, showGantt: bool)

  /** Both panels start visible. */
  const InitialPanels: Panels := Panels(true, true)

  predicate SomeVisible(p: Panels) {
    p.showEditor || p.showGantt
  }

  /** The editor button: flips the editor panel, unless that would hide the
      last visible panel. */
  function ToggleEditor(p: Panels): (r: Panels)
    ensures r.showGantt == p.showGantt
    ensures (p.showEditor && !p.showGantt) ==> r == p
    ensures !(p.showEditor && !p.showGantt) ==> r.showEditor == !p.showEditor
  {
    var next := !p.showEditor;
    if !next && !p.showGantt then p else p.(showEditor := next)
  }

  /** The preview button, symmetrically. */
  function ToggleGantt(p: Panels): (r: Panels)
    ensures r.showEditor == p.showEditor
    ensures (p.showGantt && !p.showEditor) ==> r == p
    ensures !(p.showGantt && !p.showEditor) ==> r.showGantt == !p.showGantt
  {
    var next := !p.showGantt;
    if !next && !p.showEditor then p else p.(showGantt := next)
  }

  datatype Toggle = EditorButton | GanttButton

  function ApplyToggles(p: Panels, ts: seq<Toggle>): Panels
    decreases |ts|
  {
    if ts == [] then p
    else ApplyToggles(if ts[0].EditorButton? then ToggleEditor(p) else ToggleGantt(p), ts[1..])
  }

  /** After any sequence of clicks at least one panel is visible. */
  lemma {:induction false} TogglesKeepOneVisible(p: Panels, ts: seq<Toggle>)
    requires SomeVisible(p)
    ensures SomeVisible(ApplyToggles(p, ts))
    decreases |ts|
  {
    if ts != [] {
      var q := if ts[0].EditorButton? then ToggleEditor(p) else ToggleGantt(p);
      TogglesKeepOneVisible(q, ts[1..]);
    }
  }

  /** `getPanelWidth`. */
  function PanelWidth(p: Panels): (w: string)
    ensures w == "50%" <==> p.showEditor && p.showGantt
    ensures w == "100%" <==> p.showEditor != p.showGantt
    ensures w == "0%" <==> !SomeVisible(p)
  {
    if p.showEditor && p.showGantt then "50%"
    else if p.showEditor || p.showGantt then "100%"
    else "0%"
  }

  /** The `"0%"` width is never reached from the initial panels. */
  lemma ZeroWidthUnreachable(ts: seq<Toggle>)
    ensures PanelWidth(ApplyToggles(InitialPanels, ts)) != "0%"
  {
    TogglesKeepOneVisible(InitialPanels, ts);
  }

  // ---------------------------------------------------------------------------
  // The editor-value watcher.

  /** What `editorRef.current` holds: whether it has a `getValue` method, and
      the editor's text behind it. The editor component's imperative handle has
      only `getRef`. */
  datatype EditorHandle = EditorHandle(exposesGetValue: bool, text: Option<string>)

  function AsWrittenHandle(text: Option<string>): EditorHandle {
    EditorHandle(false, text)
  }

  /** One poll of the editor: no editor yet, a thrown `TypeError`, or the text. */
  datatype Poll = NoEditor | Threw | Polled(value: Option<string>)

  function PollEditor(ref: Option<EditorHandle>): (r: Poll)
    ensures ref.None? <==> r.NoEditor?
    ensures ref.Some? && !ref.value.exposesGetValue <==> r.Threw?
    ensures r.Polled? ==> r.value == ref.value.text
  {
    if ref.None? then NoEditor
    else if !ref.value.exposesGetValue then Threw
    else Polled(ref.value.text)
  }

  /** The interval ref, the `editorValue` captured by the running interval's
      closure, the preview's `editorValue` state, the handles already cleared,
      and the next handle `setInterval` gives out. */
  datatype Watcher = Watcher(interval: Option<nat>, captured: string, editorValue: string, cleared: set<nat>, nextId: nat)

  const InitialWatcher: Watcher := Watcher(None, "", "", {}, 0)

  /** The effect's cleanup: clear the interval and reset the ref to null. */
  function Cleanup(w: Watcher): (r: Watcher)
    ensures r.interval.None?
    ensures w.interval.Some? ==> r.cleared == w.cleared + {w.interval.value}
    ensures w.interval.None? ==> r == w
  {
    if w.interval.Some? then w.(interval := None, cleared := w.cleared + {w.interval.value}) else w
  }

  /** `startEditorValueWatcher`: clears a running interval, then starts one
      whose closure holds the current `editorValue`. */
  function Start(w: Watcher): (r: Watcher)
    ensures r.interval == Some(w.nextId) && r.nextId == w.nextId + 1
    ensures r.captured == w.editorValue && r.editorValue == w.editorValue
    ensures w.interval.Some? ==> w.interval.value in r.cleared
  {
    var c := Cleanup(w);
    c.(interval := Some(c.nextId), captured := c.editorValue, nextId := c.nextId + 1)
  }

  /** A change of `props.initd`: the previous run's cleanup, then a new watcher
      only if initialised. */
  function OnInitdChange(w: Watcher, initd: bool): (r: Watcher)
    ensures r.interval.Some? <==> initd
    ensures r.editorValue == w.editorValue
  {
    var c := Cleanup(w);
    if initd then Start(c) else c
  }

  /** One interval tick: text differing from the captured value goes to the
      preview; `undefined` text reads as `""`; a throwing poll changes nothing. */
  function Tick(w: Watcher, poll: Poll): (r: Watcher)
    ensures r == w.(editorValue := r.editorValue)
    ensures poll.Polled? && w.interval.Some? && poll.value.GetOr("") != w.captured ==>
      r.editorValue == poll.value.GetOr("")
    ensures poll.Polled? && w.interval.Some? && poll.value.GetOr("") == w.captured ==> r == w
    ensures !(poll.Polled? && w.interval.Some?) ==> r == w
  {
    if w.interval.None? then w
    else match poll
      case Polled(v) =>
        var current := v.GetOr("");
        if current != w.captured then w.(editorValue := current) else w
      case _ => w
  }

  datatype WatchEvent = InitdChanged(initd: bool) | TimerTick(ref: Option<EditorHandle>)

  function WatchStep(w: Watcher, ev: WatchEvent): Watcher {
    match ev
    case InitdChanged(b) => OnInitdChange(w, b)
    case TimerTick(ref) => Tick(w, PollEditor(ref))
  }

  function RunWatch(w: Watcher, evs: seq<WatchEvent>): Watcher
    decreases |evs|
  {
    if evs == [] then w else RunWatch(WatchStep(w, evs[0]), evs[1..])
  }

  /** No interval is ever leaked: every handle given out is cleared unless it is
      the one running, and the running one is not cleared. */
  ghost predicate NoLeakedTimer(w: Watcher) {
    && (w.interval.Some? ==> w.interval.value < w.nextId && w.interval.value !in w.cleared)
    && (forall id :: id in w.cleared ==> id < w.nextId)
    && (forall id: nat :: id < w.nextId ==> id in w.cleared || w.interval == Some(id))
  }

  lemma {:induction false} WatchKeepsNoLeakedTimer(w: Watcher, evs: seq<WatchEvent>)
    requires NoLeakedTimer(w)
    ensures NoLeakedTimer(RunWatch(w, evs))
    decreases |evs|
  {
    if evs != [] {
      var w' := WatchStep(w, evs[0]);
      assert NoLeakedTimer(w') by {
        if evs[0].InitdChanged? {
          var c := Cleanup(w);
          assert NoLeakedTimer(c);
        }
      }
      WatchKeepsNoLeakedTimer(w', evs[1..]);
    }
  }

  /** As written, the handle has no `getValue`, so every tick throws and the
      preview keeps the text it had: the live preview never follows the editor. */
  lemma {:induction false} PreviewFrozenAsWritten(w: Watcher, evs: seq<WatchEvent>)
    requires forall i :: 0 <= i < |evs| && evs[i].TimerTick? && evs[i].ref.Some? ==> !evs[i].ref.value.exposesGetValue
    ensures RunWatch(w, evs).editorValue == w.editorValue
    decreases |evs|
  {
    if evs != [] {
      PreviewFrozenAsWritten(WatchStep(w, evs[0]), evs[1..]);
    }
  }

  /** As written, the tick compares with the value captured when the interval
      started, not with the preview's current value: after the preview took
      `"abc"`, clearing the editor back to the captured `""` never reaches it. */
  lemma StaleCaptureKeepsOldPreview()
    ensures var w0 := OnInitdChange(InitialWatcher, true);
      var w1 := Tick(w0, Polled(Some("abc")));
      var w2 := Tick(w1, Polled(Some("")));
      w1.editorValue == "abc" && w2.editorValue == "abc"
  {
  }

  /** The stale comparison for every state: once the preview has moved away
      from the captured value, an editor that returns to the captured value is
      never shown. */
  lemma StaleCaptureMissesReturn(w: Watcher)
    requires w.interval.Some? && w.editorValue != w.captured
    ensures Tick(w, Polled(Some(w.captured))).editorValue != w.captured
    ensures TickCorrected(w, Polled(Some(w.captured))).editorValue == w.captured
  {
  }

  /** The tick compared against the value last handed to the preview. */
  function TickCorrected(w: Watcher, poll: Poll): (r: Watcher)
    ensures r == w.(editorValue := r.editorValue)
    ensures poll.Polled? && w.interval.Some? ==> r.editorValue == poll.value.GetOr("")
    ensures !(poll.Polled? && w.interval.Some?) ==> r == w
  {
    if w.interval.None? then w
    else match poll
      case Polled(v) =>
        var current := v.GetOr("");
        if current != w.editorValue then w.(editorValue := current) else w
      case _ => w
  }

  /** With a handle that exposes `getValue` and the corrected comparison, after
      every tick of a running watcher the preview shows exactly the editor's
      text. */
  lemma PreviewFollowsEditorCorrected(w: Watcher, text: Option<string>)
    requires w.interval.Some?
    ensures TickCorrected(w, PollEditor(Some(EditorHandle(true, text)))).editorValue == text.GetOr("")
  {
  }
}

=== FILE: session.dfy ===
/** A whole configurator session put together: the entry module's locale step,
    start-up, the editor mounting, and the editor's start-up effect. */
module Session {
  import opened Wrappers
  import Atoms
  import Startup
  import EditorBridge
  import EditorInit
  import JsText
  import EditorLocale

  /** A host whose four accessors all reject. */
  const FailingHost: Startup.HostReplies :=
    Startup.HostReplies(Startup.Rejected, Startup.Rejected, Startup.Rejected, Startup.Rejected)

  /** The application component alone after start-up: it initialises, Monaco
      mounts, and the editor's start-up effect fills it. Whether the page gets
      this far is decided by `LoadPage`. */
  function Open(bridge: Option<Startup.Bridge>, defaultConfig: string): (r: (Atoms.Store, EditorBridge.Editor))
    ensures r.0.initd && r.1.editorInitd && r.1.buffer.Some?
  {
    var st := Startup.Init(Atoms.Initial, bridge, defaultConfig);
    var e := EditorBridge.OnMount(EditorBridge.Unmounted);
    var x := EditorInit.InitEffect(st, e, EditorInit.NoProviders);
    (x.0, x.1)
  }

  /** When every accessor fails, the session still opens: the editor shows the
      default configuration with the cursor at its end, the placeholder shows
      exactly when that default is empty, the page falls back to English with
      no list views or colour, and the page's `getSerializedData` callback
      returns the default. */
  lemma FailingHostOpensOnDefault(defaultConfig: string)
    ensures var r := Open(Some(Startup.Bridge(Some(FailingHost))), defaultConfig);
      && r.1.buffer.value.text == defaultConfig
      && r.1.buffer.value.cursor == EditorInit.EndPosition(defaultConfig)
      && (r.0.editorNoData <==> defaultConfig == "")
      && r.0.lang == "en" && r.0.listviewInfo == [] && r.0.accent1Color == ""
      && EditorBridge.Invoke(r.0, r.1, EditorBridge.GetSerializedData).2 == EditorBridge.Str(defaultConfig)
  {
    Startup.InitDefaults(Atoms.Initial, FailingHost, defaultConfig);
  }

  /** A stored, non-blank value is what the editor opens on and what the
      page's `getSerializedData` callback returns, unchanged. */
  lemma StoredValueRoundTrips(value: string, defaultConfig: string, h: Startup.HostReplies)
    requires h.paramValue == Startup.Resolved(value)
    requires exists i :: 0 <= i < |value| && !JsText.IsJsWhitespace(value[i])
    ensures var r := Open(Some(Startup.Bridge(Some(h))), defaultConfig);
      && EditorBridge.Invoke(r.0, r.1, EditorBridge.GetSerializedData).2 == EditorBridge.Str(value)
      && !r.0.editorNoData
  {
    Startup.InitDefaults(Atoms.Initial, h, defaultConfig);
  }

  /** The browser bridge as the locale step sees it: its `RS.Lang` resource when
      the bridge is there. */
  function RsBridgeOf(bridge: Option<Startup.Bridge>, rsLang: Option<string>): EditorLocale.RsBridge {
    if bridge.None? then EditorLocale.NoBridge else EditorLocale.Bridge(rsLang)
  }

  /** The page as its entry module loads it: `initEditorLang()` runs first, and
      its throw stops the module before the application is rendered. */
  function LoadPage(bridge: Option<Startup.Bridge>, rsLang: Option<string>, defaultConfig: string)
    : (r: Result<(EditorLocale.LoaderConfig, Atoms.Store, EditorBridge.Editor), EditorLocale.LocaleError>)
    ensures r.Err? <==> bridge.None?
    ensures r.Ok? ==> r.value.0.availableLanguage == EditorLocale.LookupLocale(EditorLocale.EffectiveLang(rsLang))
    ensures r.Ok? ==> r.value.1.initd && r.value.2.buffer.Some?
  {
    var cfg := EditorLocale.InitEditorLang(RsBridgeOf(bridge, rsLang));
    if cfg.Err? then Err(cfg.error)
    else var x := Open(bridge, defaultConfig); Ok((cfg.value, x.0, x.1))
  }

  /** Without a bridge the page never renders, although the application
      component on its own would open on the default configuration. */
  lemma NoBridgeStopsBeforeRender(rsLang: Option<string>, defaultConfig: string)
    ensures LoadPage(None, rsLang, defaultConfig) == Err(EditorLocale.TypeError)
    ensures Open(None, defaultConfig).0.initd
  {
  }

  /** The page with the guarded locale step: it always renders, and it agrees
      with `LoadPage` whenever the bridge is there. */
  function LoadPageCorrected(bridge: Option<Startup.Bridge>, rsLang: Option<string>, defaultConfig: string)
    : (r: (EditorLocale.LoaderConfig, Atoms.Store, EditorBridge.Editor))
    ensures bridge.Some? ==> LoadPage(bridge, rsLang, defaultConfig) == Ok(r)
    ensures bridge.None? ==> r.0.availableLanguage == EditorLocale.Mapped("")
    ensures r.1.initd && r.2.buffer.Some?
  {
    var cfg := EditorLocale.InitEditorLangCorrected(RsBridgeOf(bridge, rsLang));
    var x := Open(bridge, defaultConfig);
    (cfg, x.0, x.1)
  }

  /** With the guarded locale step, a page without a bridge opens in English on
      the default configuration, with the cursor at its end. */
  lemma NoBridgeOpensOnDefaultCorrected(rsLang: Option<string>, defaultConfig: string)
    ensures var r := LoadPageCorrected(None, rsLang, defaultConfig);
      && r.0.availableLanguage == EditorLocale.Mapped("")
      && r.2.buffer.value.text == defaultConfig
      && r.2.buffer.value.cursor == EditorInit.EndPosition(defaultConfig)
  {
    Startup.InitWithoutBridge(Atoms.Initial, defaultConfig);
  }
}

=== FILE: startup.dfy ===
/** Start-up of the configurator page: while the application is not initialised
    it signals `ready()` to the host and runs `init`, which reads the host's four
    accessors concurrently, replaces every failure by a fixed default, and marks
    the application initialised once all six of its promises have settled. Each
    accessor's outcome is given already settled; the order in which they settle
    is a parameter. */
module Startup {
  import opened Wrappers
  import Atoms
  import JsText
  import HostAccessors

  /** A settled accessor promise. */
  datatype Settled<T> = Resolved(value: T) | Rejected

  /** The replies of the host object, as they settle. A list-view reply that
      `JSON.parse` rejects is `Resolved(None)`; an accent reply that is null or
      undefined is `Resolved(None)`. */
  datatype HostReplies = HostReplies(
    paramValue: Settled<string>,
    language: Settled<string>,
    listViews: Settled<Option<seq<Atoms.ListViewInfo>>>,
    accent: Settled<Option<string>>)

  /** `window.forguncyWebBrowserBridge`, when present, with its host object, when
      that is present. Without either, every accessor promise is `undefined`. */
  datatype Bridge = Bridge(hostObject: Option<HostReplies>)

  /** The six promises `init` waits for. */
  datatype Step = DataSourcesStep | IsCommandStep | ValueStep | LangStep | ListViewStep | AccentStep

  const AllSteps: set<Step> :=
    {DataSourcesStep, IsCommandStep, ValueStep, LangStep, ListViewStep, AccentStep}

  /** The in-flight `init`: the atoms so far, its local `initValue`, and the
      promises that have settled. */
  datatype Pending = Pending(store: Atoms.Store, initValue: string, settled: set<Step>)

  function Begin(st: Atoms.Store): Pending {
    Pending(st, "", {})
  }

  /** The replies `init` can reach: none without a bridge or a host object. */
  function Replies(bridge: Option<Bridge>): Option<HostReplies> {
    if bridge.Some? then bridge.value.hostObject else None
  }

  /** The value each handler writes, given the current one. */
  function ValueAfter(host: Option<HostReplies>, cur: string): string {
    match host
    case None => cur
    case Some(h) => match h.paramValue
      case Resolved(d) => d
      case Rejected => ""
  }

  function LangAfter(host: Option<HostReplies>, cur: string): string {
    match host
    case None => cur
    case Some(h) => match h.language
      case Resolved(l) => l
      case Rejected => "en"
  }

  function ListViewsAfter(host: Option<HostReplies>, cur: seq<Atoms.ListViewInfo>): seq<Atoms.ListViewInfo> {
    match host
    case None => cur
    case Some(h) => match h.listViews
      case Resolved(Some(xs)) => xs
      case Resolved(None) => []
      case Rejected => []
  }

  function AccentAfter(host: Option<HostReplies>, cur: string): string {
    match host
    case None => cur
    case Some(h) => match h.accent
      case Resolved(Some(c)) => c
      case Resolved(None) => ""
      case Rejected => ""
  }

  /** One promise settling: its handler writes its own atom (or the local value)
      and nothing else. */
  function Settle(p: Pending, host: Option<HostReplies>, s: Step): (r: Pending)
    ensures r.settled == p.settled + {s}
  {
    var st := p.store;
    var p' := match s
      case DataSourcesStep => p.(store := st.(dataSources := []))
      case IsCommandStep => p.(store := st.(isCommand := false))
      case ValueStep => p.(initValue := ValueAfter(host, p.initValue))
      case LangStep => p.(store := st.(lang := LangAfter(host, st.lang)))
      case ListViewStep => p.(store := st.(listviewInfo := ListViewsAfter(host, st.listviewInfo)))
      case AccentStep => p.(store := st.(accent1Color := AccentAfter(host, st.accent1Color)));
    p'.(settled := p.settled + {s})
  }

  function SettleAll(p: Pending, host: Option<HostReplies>, order: seq<Step>): (r: Pending)
    decreases |order|
  {
    if order == [] then p else SettleAll(Settle(p, host, order[0]), host, order[1..])
  }

  /** After `Promise.all`: only once every promise has settled does `init`
      store the value, with a blank one replaced by the default configuration,
      and mark the application initialised. */
  function Finish(p: Pending, defaultConfig: string): (r: Option<Atoms.Store>)
    ensures r.Some? <==> p.settled == AllSteps
    ensures r.Some? ==> r.value.initd
    ensures r.Some? && JsText.IsBlank(p.initValue) ==> r.value.initValue == defaultConfig
    ensures r.Some? && !JsText.IsBlank(p.initValue) ==> r.value.initValue == p.initValue
    ensures r.Some? ==> r.value.(initValue := p.store.initValue, initd := p.store.initd) == p.store
  {
    if p.settled != AllSteps then None
    else
      var v := if JsText.IsBlank(p.initValue) then defaultConfig else p.initValue;
      Some(p.store.(initValue := v, initd := true))
  }

  /** The settling order the source lists in its `Promise.all`. */
  const ListedOrder: seq<Step> := [IsCommandStep, DataSourcesStep, LangStep, ListViewStep, ValueStep, AccentStep]

  /** `init`, run to completion. */
  function Init(st: Atoms.Store, bridge: Option<Bridge>, defaultConfig: string): (r: Atoms.Store)
    ensures r.initd && r.dataSources == [] && !r.isCommand
    ensures r.editorNoData == st.editorNoData
  {
    FinishAfterAll(st, Replies(bridge), defaultConfig, ListedOrder);
    Finish(SettleAll(Begin(st), Replies(bridge), ListedOrder), defaultConfig).value
  }

  /** Which field a settling promise writes, and what it writes there. */
  lemma SettleOne(p: Pending, host: Option<HostReplies>, s: Step)
    ensures var r := Settle(p, host, s);
      && r.initValue == (if s == ValueStep then ValueAfter(host, p.initValue) else p.initValue)
      && r.store == p.store.(
           lang := if s == LangStep then LangAfter(host, p.store.lang) else p.store.lang,
           listviewInfo := if s == ListViewStep then ListViewsAfter(host, p.store.listviewInfo) else p.store.listviewInfo,
           accent1Color := if s == AccentStep then AccentAfter(host, p.store.accent1Color) else p.store.accent1Color,
           dataSources := if s == DataSourcesStep then [] else p.store.dataSources,
           isCommand := if s == IsCommandStep then false else p.store.isCommand)
  {
  }

  /** The fields a settling order leaves behind. */
  ghost predicate FieldsAfter(p: Pending, host: Option<HostReplies>, order: seq<Step>, r: Pending) {
    && r.initValue == (if ValueStep in order then ValueAfter(host, p.initValue) else p.initValue)
    && r.store == p.store.(
         lang := if LangStep in order then LangAfter(host, p.store.lang) else p.store.lang,
         listviewInfo :=
           if ListViewStep in order then ListViewsAfter(host, p.store.listviewInfo) else p.store.listviewInfo,
         accent1Color :=
           if AccentStep in order then AccentAfter(host, p.store.accent1Color) else p.store.accent1Color,
         dataSources := if DataSourcesStep in order then [] else p.store.dataSources,
         isCommand := if IsCommandStep in order then false else p.store.isCommand)
  }

  /** The steps an order names, one step at a time. */
  lemma StepsOfCons(order: seq<Step>)
    requires order != []
    ensures (set s | s in order) == {order[0]} + (set s | s in order[1..])
  {
    assert order == [order[0]] + order[1..];
  }

  /** A settling order settles exactly the promises it names. */
  lemma {:induction false} SettledSteps(p: Pending, host: Option<HostReplies>, order: seq<Step>)
    ensures SettleAll(p, host, order).settled == p.settled + (set s | s in order)
    decreases |order|
  {
    if order == [] {
      assert (set s | s in order) == {};
    } else {
      SettledSteps(Settle(p, host, order[0]), host, order[1..]);
      StepsOfCons(order);
    }
  }

  /** The state of every field after any settling order depends only on whether
      its own promise has settled: handlers write disjoint fields, and writing
      the same reply twice changes nothing. */
  lemma {:induction false} SettledFields(p: Pending, host: Option<HostReplies>, order: seq<Step>)
    ensures FieldsAfter(p, host, order, SettleAll(p, host, order))
    decreases |order|
  {
    if order != [] {
      var q := Settle(p, host, order[0]);
      SettleOne(p, host, order[0]);
      SettledFields(q, host, order[1..]);
      assert order == [order[0]] + order[1..];
    }
  }

  /** Once every promise has settled, in whatever order, `init` ends with each
      field set by its own handler alone. */
  lemma FinishAfterAll(st: Atoms.Store, host: Option<HostReplies>, defaultConfig: string, order: seq<Step>)
    requires ValueStep in order && LangStep in order && ListViewStep in order
    requires AccentStep in order && DataSourcesStep in order && IsCommandStep in order
    ensures var v := ValueAfter(host, "");
      Finish(SettleAll(Begin(st), host, order), defaultConfig) == Some(st.(
        initValue := if JsText.IsBlank(v) then defaultConfig else v,
        initd := true,
        lang := LangAfter(host, st.lang),
        listviewInfo := ListViewsAfter(host, st.listviewInfo),
        accent1Color := AccentAfter(host, st.accent1Color),
        dataSources := [],
        isCommand := false))
  {
    SettledSteps(Begin(st), host, order);
    SettledFields(Begin(st), host, order);
    var a := SettleAll(Begin(st), host, order);
    CoversAllSteps(order);
    assert a.settled == AllSteps;
    assert a.initValue == ValueAfter(host, "");
    assert a.store == st.(
      lang := LangAfter(host, st.lang),
      listviewInfo := ListViewsAfter(host, st.listviewInfo),
      accent1Color := AccentAfter(host, st.accent1Color),
      dataSources := [],
      isCommand := false);
  }

  /** `Init` field by field. */
  lemma InitFields(st: Atoms.Store, bridge: Option<Bridge>, defaultConfig: string)
    ensures var host := Replies(bridge);
      var v := ValueAfter(host, "");
      Init(st, bridge, defaultConfig) == st.(
        initValue := if JsText.IsBlank(v) then defaultConfig else v,
        initd := true,
        lang := LangAfter(host, st.lang),
        listviewInfo := ListViewsAfter(host, st.listviewInfo),
        accent1Color := AccentAfter(host, st.accent1Color),
        dataSources := [],
        isCommand := false)
  {
    FinishAfterAll(st, Replies(bridge), defaultConfig, ListedOrder);
  }

  lemma CoversAllSteps(order: seq<Step>)
    requires ValueStep in order && LangStep in order && ListViewStep in order
    requires AccentStep in order && DataSourcesStep in order && IsCommandStep in order
    ensures (set s | s in order) == AllSteps
  {
    forall s: Step ensures s in AllSteps && s in order {
      match s
      case DataSourcesStep =>
      case IsCommandStep =>
      case ValueStep =>
      case LangStep =>
      case ListViewStep =>
      case AccentStep =>
    }
  }

  /** One accessor's failure never holds up or alters another's result: any
      two orders in which the six promises settle end `init` in the same state. */
  lemma {:induction false} SettlingOrderIsIrrelevant(st: Atoms.Store, bridge: Option<Bridge>, defaultConfig: string,
                                                     order1: seq<Step>, order2: seq<Step>)
    requires ValueStep in order1 && LangStep in order1 && ListViewStep in order1
    requires AccentStep in order1 && DataSourcesStep in order1 && IsCommandStep in order1
    requires ValueStep in order2 && LangStep in order2 && ListViewStep in order2
    requires AccentStep in order2 && DataSourcesStep in order2 && IsCommandStep in order2
    ensures Finish(SettleAll(Begin(st), Replies(bridge), order1), defaultConfig)
         == Finish(SettleAll(Begin(st), Replies(bridge), order2), defaultConfig)
  {
    FinishAfterAll(st, Replies(bridge), defaultConfig, order1);
    FinishAfterAll(st, Replies(bridge), defaultConfig, order2);
  }

  /** Until the last promise settles, the application stays uninitialised. */
  lemma NotInitialisedBeforeAllSettle(st: Atoms.Store, bridge: Option<Bridge>, defaultConfig: string, order: seq<Step>, missing: Step)
    requires missing !in order
    ensures Finish(SettleAll(Begin(st), Replies(bridge), order), defaultConfig).None?
  {
    SettledSteps(Begin(st), Replies(bridge), order);
  }

  /** The documented defaults, accessor by accessor, each independent of the
      others' replies. */
  lemma InitDefaults(st: Atoms.Store, h: HostReplies, defaultConfig: string)
    ensures var r := Init(st, Some(Bridge(Some(h))), defaultConfig);
      && (h.paramValue.Rejected? ==> r.initValue == defaultConfig)
      && (h.paramValue.Resolved? && JsText.IsBlank(h.paramValue.value) ==> r.initValue == defaultConfig)
      && (h.paramValue.Resolved? && !JsText.IsBlank(h.paramValue.value) ==> r.initValue == h.paramValue.value)
      && (h.language.Rejected? ==> r.lang == "en")
      && (h.language.Resolved? ==> r.lang == h.language.value)
      && (h.listViews.Rejected? || h.listViews == Resolved(None) ==> r.listviewInfo == [])
      && (h.listViews.Resolved? && h.listViews.value.Some? ==> r.listviewInfo == h.listViews.value.value)
      && (h.accent.Rejected? || h.accent == Resolved(None) ==> r.accent1Color == "")
      && (h.accent.Resolved? && h.accent.value.Some? ==> r.accent1Color == h.accent.value.value)
  {
    InitFields(st, Some(Bridge(Some(h))), defaultConfig);
  }

  /** With no bridge at all, start-up still completes, seeded with the default
      configuration; language, list views and colour keep their previous values. */
  lemma InitWithoutBridge(st: Atoms.Store, defaultConfig: string)
    ensures var r := Init(st, None, defaultConfig);
      && r.initd && r.initValue == defaultConfig
      && r.lang == st.lang && r.listviewInfo == st.listviewInfo && r.accent1Color == st.accent1Color
  {
    InitFields(st, None, defaultConfig);
  }

  /** A re-run of start-up reads the host's current value; nothing of the
      previous session's value survives. */
  lemma {:induction false} ReinitReadsCurrentValue(st1: Atoms.Store, st2: Atoms.Store, bridge: Option<Bridge>, defaultConfig: string)
    ensures Init(st1, bridge, defaultConfig).initValue == Init(st2, bridge, defaultConfig).initValue
  {
    InitFields(st1, bridge, defaultConfig);
    InitFields(st2, bridge, defaultConfig);
  }

  /** The host object's own replies, as `init` receives them. */
  function RepliesFromHost(ctx: Option<HostAccessors.BuilderContext>, dc: Option<HostAccessors.DataContext>, lang: string)
    : HostReplies
  {
    HostReplies(
      Resolved(HostAccessors.GetParamValue(dc)),
      Resolved(lang),
      Resolved(Some(HostAccessors.GetAllListviewInPage(ctx).infos)),
      Resolved(Some(HostAccessors.GetAccent1Color(ctx))))
  }

  /** Against the real host object, without a builder context the page starts
      with no list views and no accent colour, and an unset property starts the
      editor on the default configuration. */
  lemma InitAgainstHost(st: Atoms.Store, ctx: Option<HostAccessors.BuilderContext>,
                        dc: Option<HostAccessors.DataContext>, lang: string, defaultConfig: string)
    ensures var r := Init(st, Some(Bridge(Some(RepliesFromHost(ctx, dc, lang)))), defaultConfig);
      && (ctx.None? ==> r.listviewInfo == [] && r.accent1Color == "")
      && (r.accent1Color == "" || (|r.accent1Color| == 7 && r.accent1Color[0] == '#'))
      && (dc.None? ==> r.initValue == defaultConfig)
  {
    InitDefaults(st, RepliesFromHost(ctx, dc, lang), defaultConfig);
  }

  /** What the start-up effect does on a change of `initd`. */
  datatype StartupCall = ReadyCalled | InitRun

  /** The effect on `initd`: when not initialised, `ready()` (if the bridge is
      there) and then `init()`; when initialised, nothing. */
  function InitdEffect(initd: bool, bridge: Option<Bridge>): (r: seq<StartupCall>)
    ensures initd <==> r == []
    ensures !initd ==> r[|r| - 1] == InitRun && (bridge.Some? <==> r[0] == ReadyCalled)
    ensures |r| == (if initd then 0 else if bridge.Some? then 2 else 1)
    ensures ReadyCalled in r <==> !initd && bridge.Some?
  {
    if initd then [] else (if bridge.Some? then [ReadyCalled] else []) + [InitRun]
  }
}

=== FILE: wrappers.dfy ===
/** Option and Result, the failure-carrying values the rest of the model returns
    in place of JavaScript's `undefined` / C#'s `null` and thrown exceptions. */
module Wrappers {

  /** `None` stands for `null` or `undefined`. */
  datatype Option<+T> = None | Some(value: T) {

    /** The value, or `default` when there is none (JavaScript's `x ?? d`). */
    function GetOr(default: T): T {
      match this
      case Some(v) => v
      case None => default
    }
  }

  /** `Err` stands for an exception that escapes the modelled code. */
  datatype Result<+T, +E> = Ok(value: T) | Err(error: E)
}
